=== FILE: README.md ===
# cppargs in Dafny

This is a model of the core of cppargs, a small C++ command-line parser.

A program registers its parameters in a `cppargs::Parameters` object. Each parameter has a long name, an optional one-character short name, a description, and either no validator (a flag) or a `validate` predicate on the raw argument. Each registration returns a `Parameter<T>` handle that holds the parameter's index.

`cppargs::parse` walks `argv` from left to right. Each token is one of:
- a long option `--name`;
- a short-option cluster `-xyz`, where a value-taking character takes the rest of the token or the next token as its value;
- anything else, which is a positional argument and is rejected.

The walk either fills one optional raw string per parameter, with slot 0 holding `argv[0]`, or stops at the first error. The error is thrown as a `cppargs::Exception`. That exception carries a `Parse_error_info` record: the command line joined with spaces, the error kind, and a 1-based column and byte width into that line. It also carries the message `"Error: <phrase> '<substring>'"`.

The model covers the newer iteration, in which `validate` is nullable: parse.cpp, exception.cpp, parameters.cpp, arguments.cpp, and the `add` overloads and handles in cppargs.hpp. The older iteration in cppargs.cpp, which uses an `is_flag` field and a stub `parse`, is modelled separately in the `Legacy` module.

Modules:
- `Wrappers` (wrappers.dfy): `Option`, `Result`, and a first-match search.
- `CommandLine` (command_line.dfy): command-line validity, the joined line, and token columns.
- `ParseErrors` (errors.dfy): the error record, `error_substring`, the kind-to-phrase mapping, the message, and the `Exception` constructor.
- `HelpLayout` (help_layout.dfy): the help-string layout shared by both iterations.
- `Parameters` (parameters.dfy): the registry, `add`, `info_span`, `help_string`, and type admissibility.
- `ParsedArguments` (arguments.dfy): the result vector, `argv_0` and `operator[]`.
- `Parser` (parser.dfy): the token walk, both as written and with the intended error columns.
- `Occurrences` (occurrences.dfy): the value each parameter ends up with, defined without the walk: the value of the last token read as an option that names it.
- `ParseProperties` (parse_properties.dfy): what a parse guarantees. A defect is defined without the walk: a token read as an option that is not an option, or a name in it that no entry has or whose value is missing or rejected. A parse fails exactly when a token it reads as an option has a defect, and the error's column and width pick out the offending bytes of the first such token, or of the value token it takes. At that token exactly one record is explained, so the statement pins the error the parse reports.
- `Legacy` (legacy.dfy): the older iteration.
- `Examples` (examples.dfy): the test-suite command lines, and the inputs behind the findings.

Representation choices:
- `argv` is a `seq<Option<string>>`, where `None` is a null pointer.
- A Dafny `string` stands for a C++ byte string, one `char` per byte. Lengths, widths and columns count bytes, and so does the cluster loop at parse.cpp:91, which reads one byte per short name.
- `std::size_t` is `nat`. The one wrap-around that matters, `error_column - 1` for column 0, is written out as an error.
- Exceptions are `Result` failures. `Parser.ParseFailure` distinguishes three of them:
  - `std::invalid_argument` for a malformed command line;
  - a `cppargs::Exception`;
  - the `std::out_of_range` that `substr` can throw while that exception's message is being built.
- A parameter's `validate` is an abstract `string -> bool`. Slots keep the raw validated string, and a flag stores the empty present value.

## Model

| member | source | states |
|---|---|---|
| CommandLine.IsValidCommandLine | cppargs/parse.cpp:8-16 | the validity test: at least one element, and no null after `argv[0]` (which may be null); `Parser.Parse` throws `std::invalid_argument` exactly when it fails |
| CommandLine.MakeCommandLineString | cppargs/parse.cpp:18-28 | the joined line: `argv[0]`, then each later element after one space; `CommandLine.LineLength` gives its length and `CommandLine.ColumnLocatesToken` where each element sits |
| CommandLine.CommandLineColumn | cppargs/parse.cpp:30-39 | the column is at least 1, and past a non-null `argv[0]` it is at least 2 plus that element's length |
| CommandLine.LineLength | cppargs/parse.cpp:18-39 | with non-null `argv[0]`, the column one past the last element is the joined line's length plus 2 |
| CommandLine.ColumnLocatesToken | cppargs/parse.cpp:18-39 | element `k` occupies exactly the bytes starting at its column minus 1 in the joined line; a later element is preceded by a space, and the last element ends the line |
| CommandLine.TokenInLineUpTo | cppargs/parse.cpp:18-39 | as the line grows one element at a time, an element already placed stays at its column, after a space unless it is `argv[0]`, and the newest element ends the line |
| CommandLine.ColumnsIncrease | cppargs/parse.cpp:30-39 | a later element's column lies past the end of every earlier element and the space after it, so the elements' ranges in the line do not overlap |
| CommandLine.TokenSlice | cppargs/parse.cpp:18-39 | the bytes `[from, to)` of element `k` sit at its column minus 1 plus `from` in the joined line, and the last element's tail ends the line |
| Wrappers.FindFirst | cppargs/parse.cpp:70-71 | the result is the first position whose element satisfies the predicate, or none when no element does |
| Parser.FindLong | cppargs/parse.cpp:70-71 | the lookup returns the first entry with that long name, and none exactly when no entry has it |
| Parser.FindShort | cppargs/parse.cpp:93-94 | the lookup returns the first entry with that short name, and none exactly when no entry has it |
| Parser.LocatedError | cppargs/parse.cpp:57-66 | the record the `exception` lambda builds: the joined line, the kind, the column of the current token plus `column_plus`, and the width of the view; `ParseProperties.LocatedExplained` states when it is explained |
| Parser.InitialSlots | cppargs/parse.cpp:48-52 | the result vector has one slot per parameter plus one; slot 0 is `argv[0]` (absent when null) and every other slot is absent |
| Parser.LongOption | cppargs/parse.cpp:68-88 | a long option either fails or keeps the vector size and slot 0 and consumes one or two tokens |
| Parser.ShortCluster | cppargs/parse.cpp:89-122 | a cluster either fails or keeps the vector size and slot 0 and consumes its own token or also the next one |
| Parser.Step | cppargs/parse.cpp:54-125 | only a long option or a cluster token can succeed; a positional token always fails |
| Parser.Walk | cppargs/parse.cpp:54-126 | the outer loop keeps the vector size and slot 0; `ParseProperties.WalkSucceeds` and `ParseProperties.WalkErrorExplained` state what it stores and how it fails |
| Parser.Parse | cppargs/parse.cpp:42-129 | the result is `std::invalid_argument` exactly when the command line is invalid; on success there are size+1 slots and `argv_0` is `argv[0]` |
| Parser.ParseIntended | cppargs/parse.cpp:42-129 | the same guarantee for the walk with the intended short-option value columns |
| ParseProperties.LocatedExplained | cppargs/parse.cpp:57-66 | a record built at token `k` plus `off` is explained there once the bytes there are what its kind names: its range quotes exactly those bytes of that one token; unless it blames a value taken from the token before, that token is its site |
| ParseProperties.ClusterFailsOnDefect | cppargs/parse.cpp:89-122 | a cluster fails exactly when, after a run of flags, one of its names has a defect: no entry has it, or it takes a value that is missing or rejected |
| ParseProperties.StepFailsOnDefect | cppargs/parse.cpp:54-125 | one token fails exactly when it has a defect: it is not an option, or a name the walk reads in it has a defect |
| ParseProperties.NextValueErrorExplained | cppargs/parse.cpp:82-86 | a value token rejected by the option named last in the token before it is explained when reported whole at its own column, and that option token takes it as its value |
| ParseProperties.ShortNameErrorExplained | cppargs/parse.cpp:96-98 | a cluster character after flags only is explained at its own token when reported alone, if no entry has it as short name, or it takes a value and ends the last token (parse.cpp:112-114) |
| ParseProperties.InlineValueErrorExplained | cppargs/parse.cpp:102-110 | the rest of a cluster after a value option's character, rejected by that option, is explained at that token when reported from its first byte |
| ParseProperties.LongOptionErrorExplained | cppargs/parse.cpp:68-88 | every long-option error is explained with that option as its site: the name after `--` when no entry has it, or when it takes a value and ends the line; otherwise the whole value token the option takes and rejects. A site admits one record only (`ParseProperties.SiteDeterminesError`) |
| ParseProperties.ShortClusterErrorExplained | cppargs/parse.cpp:89-122 | every cluster error other than `invalid_argument` is explained at that cluster, at the character that caused it; with the intended columns the rejected value is explained as well |
| ParseProperties.StepErrorExplained | cppargs/parse.cpp:54-125 | the error of one token is explained at that token, with the same exception for `invalid_argument` as written; a positional token is reported whole |
| ParseProperties.WalkErrorExplained | cppargs/parse.cpp:54-126 | a failed walk stopped at the first token it reads as an option that has a defect, and, with a non-null `argv[0]`, its error is explained at that token (or at the value token it takes), with the same exception for `invalid_argument` as written |
| ParseProperties.WalkReadsOptions | cppargs/parse.cpp:54-126 | a successful walk reads as options only tokens without a defect, and passes over a non-option token only as the value that the option token before it takes |
| ParseProperties.WalkFailsOnDefect | cppargs/parse.cpp:54-126 | the walk fails exactly when some token it reads as an option has a defect |
| ParseProperties.FirstWalkErrorExplained | cppargs/parse.cpp:54-126 | the error of a failed walk from token 1 is the one record explained at its first defect, and no other record is explained there, unless it is `invalid_argument` as written |
| ParseProperties.ExplainedErrorHasMessage | cppargs/exception.cpp:5-14 | when an error is explained, its range lies inside the line, the exception can be built, and its message quotes exactly those bytes |
| ParseProperties.InlineValueAsWrittenUnexplained | cppargs/parse.cpp:109 | as written, a rejected inline value reported from the option character with the value's width is explained by no token and offset: the range ends one byte short of its token and lies in no other |
| ParseProperties.NextValueAsWrittenUnexplained | cppargs/parse.cpp:119 | as written, a rejected next-token value reported at its column plus the cluster offset is explained by nothing whenever the value is at least as long as that offset |
| ParseProperties.ParseErrorsExplained | cppargs/parse.cpp:42-129 | as written, every failure comes from a walk that stopped at the first token read as an option with a defect; every error other than `invalid_argument` becomes an exception whose record is explained at that token, and is the only record explained there; only `invalid_argument` can make `substr` throw |
| ParseProperties.IntendedParseErrorsExplained | cppargs/parse.cpp:42-129 | with the intended columns, every failure on a valid command line is an exception whose record is explained at the first token read as an option that has a defect, no other record being explained there, and whose message quotes exactly the explained bytes |
| ParseProperties.OnTokenUnique | cppargs/parse.cpp:68-125 | two records explained on the same token have the same kind, offset and width: the walk reads the names of a cluster in order and stops at the first that is not a flag |
| ParseProperties.OnTokenTakesNoValue | cppargs/parse.cpp:89-120 | a token that takes the next token as a value has no record explained on itself, except a missing value when it is the last token |
| ParseProperties.SiteDeterminesError | cppargs/parse.cpp:54-125 | at most one record is explained at a site: the token, the registry and the line fix the kind, column and width |
| ParseProperties.ExplainedAtFirstDefectUnique | cppargs/parse.cpp:54-126 | at most one record is explained at the first defect |
| Occurrences.ClusterStores | cppargs/parse.cpp:89-122 | a successful cluster stores, for every entry, the value its characters give it, the later store winning, and takes the next token exactly when its last name takes a value |
| Occurrences.StepStores | cppargs/parse.cpp:54-125 | a successful step stores each entry's value from that token and moves to the next token read as an option |
| Occurrences.WalkStoresLastValues | cppargs/parse.cpp:54-126 | a successful walk leaves each slot at the value from the last token read as an option that names the entry, or as it was when none does |
| Occurrences.ClusterValueNamed | cppargs/parse.cpp:91-111 | a cluster stores a value for an entry exactly when one of its characters, after flags only, is a short name found at that entry |
| Occurrences.TokenValueNamed | cppargs/parse.cpp:68-122 | an option token stores a value for an entry exactly when it names the entry: `--name`, or a cluster character after flags only |
| Occurrences.LastValueFrom | cppargs/parse.cpp:54-126 | an entry's last value is present exactly when some token read as an option stores one for it |
| Occurrences.LastValueNamed | cppargs/parse.cpp:54-126 | an entry's last value is present exactly when some token read as an option names it |
| Occurrences.LastOccurrenceWins | cppargs/parse.cpp:77-116 | when a token stores a value for an entry and no later token read as an option does, that value is the entry's last value: later occurrences overwrite earlier ones |
| Occurrences.FlagsThenValueTakesNext | cppargs/parse.cpp:91-116 | a cluster takes the next token as a value exactly when its characters are flags up to a last one that names a value option |
| ParseProperties.WalkSucceeds | cppargs/parse.cpp:54-128 | a successful walk changes only the slots of named parameters, stores accepted values, never empties a slot, and leaves each slot at the entry's last value; no token it reads as an option has a defect, and every non-option token from its start is the value that the option token just before it takes |
| ParseProperties.ParseSucceeds | cppargs/parse.cpp:42-129 | after a successful parse, slot 0 is `argv[0]`; each parameter's slot holds the value of the last token read as an option that names it, and is filled exactly when one does; a filled slot holds an accepted value (the empty value for a flag); no token read as an option has a defect, and every non-option token is the value the option token before it takes |
| ParseProperties.HandleReadsItsSlot | cppargs/cppargs.hpp:131-135 | reading through a registered handle after a parse never throws and never reaches slot 0; it returns the parameter's last value, present exactly when a token read as an option names it, and accepted |
| ParseErrors.ErrorSubstring | cppargs/exception.cpp:5-8 | the substring exists exactly when the start is inside the line or at its end; it is the bytes at the column, clamped at the end of the line, with full width whenever the line is long enough |
| ParseErrors.FormatError | cppargs/exception.cpp:10-14 | formatting fails exactly when the substring cannot be taken |
| ParseErrors.Message | cppargs/exception.cpp:13 | the text of `"Error: {} '{}'"` filled with a phrase and a substring |
| ParseErrors.MessageLayout | cppargs/exception.cpp:13 | a message is "Error: ", the phrase, a space and the substring in single quotes, with ten bytes besides the phrase and the substring |
| ParseErrors.InRangeQuotes | cppargs/exception.cpp:5-40 | a record whose range lies inside its line has exactly that range as `error_substring`, and builds an exception whose message quotes it after the kind's phrase |
| ParseErrors.Phrase | cppargs/exception.cpp:20-33 | the phrase the constructor chooses for each of the four kinds |
| ParseErrors.MessageInitial | cppargs/exception.cpp:13-33 | the byte after "Error: " is the first letter of the kind's phrase, which differs for the four kinds |
| ParseErrors.MakeException | cppargs/exception.cpp:17-40 | the constructor throws exactly when the substring cannot be taken; otherwise `info()` is the record unchanged and `what()` is "Error: " + the kind's phrase + the quoted substring |
| ParseErrors.MessageDeterminesKind | cppargs/exception.cpp:20-33 | the four phrases are distinct, so equal messages come from the same kind |
| ParseErrors.MessageDeterminesError | cppargs/exception.cpp:10-33 | a message determines both the kind and the substring it was built from |
| ParseErrors.ExceptionRoundTrip | cppargs/exception.cpp:17-50 | from a built exception's `what()` and `info()` one gets back the recorded kind and its substring |
| ParseErrors.Info | cppargs/exception.cpp:42-45 | `info()` returns the stored record; `ParseErrors.MakeException` states it is the record the exception was built from |
| ParseErrors.What | cppargs/exception.cpp:47-50 | `what()` returns the stored message; `ParseErrors.MakeException` states it is the formatted message |
| Parameters.AddParameter | cppargs/parameters.cpp:4-19 | registration appends exactly one entry with the given fields, returns the old size + 1 as its index, and leaves earlier entries unchanged |
| Parameters.Add | cppargs/cppargs.hpp:87-102 | `add<T>` appends one entry and returns a handle with its index; the entry is a flag exactly when `T` is `Unit` |
| Parameters.AddLong | cppargs/cppargs.hpp:104-110 | the long-name-only overload registers an entry without a short name, and is otherwise `add` |
| Parameters.InfoSpan | cppargs/parameters.cpp:50-53 | the span lists the entries in order, entry `i` with index `i + 1` |
| Parameters.ParameterTypeShape | cppargs/cppargs.hpp:41-60 | a type is admissible exactly when it is string, string_view, `Unit` or integral, wrapped in at most one `std::vector` |
| Parameters.HelpString | cppargs/parameters.cpp:21-48 | the help string is the reference layout of the registry's entries, with `[arg]` exactly when `validate` is non-null |
| Parameters.HelpStringShape | cppargs/parameters.cpp:21-48 | entry `i`'s line sits between the lines of the entries before and after it; it is a tab, the names column (`--long`, `, -s` if present, ` [arg]` exactly when `validate` is non-null) padded to the widest column, " : ", the description or "...", and a newline |
| HelpLayout.NamesColumn | cppargs/parameters.cpp:27-33 | the names column starts with `--` and the long name, and its length accounts for the optional short name and `[arg]` |
| HelpLayout.PadRight | cppargs/parameters.cpp:40-44 | padding keeps the names as a prefix and fills up to the width with spaces only |
| HelpLayout.MaxNamesLength | cppargs/parameters.cpp:34 | the width is at least every names column's length and equal to one of them, or 0 with no entries |
| HelpLayout.WidestNames | cppargs/parameters.cpp:26-36 | the first loop ends with the widest names column of all the entries, 0 when there are none |
| HelpLayout.FormatLines | cppargs/parameters.cpp:38-47 | the formatting loop appends exactly the reference lines in order |
| HelpLayout.HelpText | cppargs/parameters.cpp:21-48 | the two loops together produce the reference layout: every entry's line, padded to the widest names column, in order |
| HelpLayout.RenderLinesAppend | cppargs/parameters.cpp:38-47 | rendering a concatenation of entry lists renders each list and concatenates the results |
| HelpLayout.HelpLineAt | cppargs/parameters.cpp:38-47 | entry `i`'s line sits between the lines of the entries before and after it |
| HelpLayout.HelpLineAligned | cppargs/parameters.cpp:40-45 | every line has its names, padding, " : ", description and newline at the same fixed positions |
| HelpLayout.RenderEmptyIffNoEntries | cppargs/parameters.cpp:38-47 | the help string is empty exactly when there are no entries |
| HelpLayout.RenderLineCount | cppargs/parameters.cpp:38-47 | without newlines in names and descriptions, the help string has exactly one newline per entry |
| ParsedArguments.ArgvZero | cppargs/arguments.cpp:5-8 | `argv_0` returns the front slot: `argv[0]` after a parse, absent when it was null (`Parser.Parse` states this) |
| ParsedArguments.Get | cppargs/cppargs.hpp:131-135 | `operator[]` returns the slot at the handle's index, and throws exactly when the index is past the end |
| Legacy.HelpString | cppargs/cppargs.cpp:14-41 | the older help string is the same reference layout, with `[arg]` exactly for non-flags |
| Legacy.HelpAgreesAcrossIterations | cppargs/cppargs.cpp:24-26 | the two iterations render the same help string when `is_flag` holds exactly where `validate` is null |
| Legacy.Size | cppargs/cppargs.cpp:43-46 | `size` is the number of registered parameters, which the stub parse uses for the vector length |
| Legacy.Parse | cppargs/cppargs.cpp:54-65 | the stub returns size + 1 slots, with `argv[0]` in front and every other slot empty |
| Legacy.ArgvZero | cppargs/cppargs.cpp:48-52 | `argv_0` returns the front slot of a non-empty vector, as the assertion demands |
| Legacy.StubParseReadBack | cppargs/cppargs.cpp:48-52 | `argv_0` of the stub's result is `argv[0]`, and every parameter slot is empty |
| Examples.UnrecognizedLongOption | cppargs/parse.cpp:68-75 | `--version` with nothing registered gives `unrecognized_option` at column 15, width 7 |
| Examples.UnrecognizedShortOptionInCluster | cppargs/parse.cpp:89-98 | `-vx` with flags h and v gives `unrecognized_option` at column 15, width 1 |
| Examples.MissingArgumentForLongOption | cppargs/parse.cpp:79-81 | `--interesting` as the last token gives `missing_argument` at column 15, width 11 |
| Examples.InvalidArgumentForLongOption | cppargs/parse.cpp:82-87 | `--interesting hello` gives `invalid_argument` at column 27, width 5 |
| Examples.PositionalArgumentRejected | cppargs/parse.cpp:123-125 | `hello` gives `positional_argument` at column 13, width 5 |
| Examples.ClusterWithInlineValue | cppargs/parse.cpp:99-107 | `-cbabc` sets c, gives b the value "abc", and leaves a absent |
| Examples.ShortOptionsWithValues | cppargs/parse.cpp:102-117 | `-a56 -b qwerty` gives a "56" and b "qwerty", and leaves c absent |
| Examples.InlineValueErrorAsWritten | cppargs/parse.cpp:109 | as written, `-a5x` quotes "a5" instead of the rejected value "5x", and no token explains the record; the intended walk quotes "5x", explained |
| Examples.NextTokenValueErrorAsWritten | cppargs/parse.cpp:119 | as written, `-a ""` makes the message's `substr` throw `std::out_of_range`; the intended walk reports the empty value |
| Examples.NextTokenValueErrorShifted | cppargs/parse.cpp:119 | as written, `-a hello` quotes "ello", and no token explains the record; the intended walk quotes "hello", explained |
| Examples.ConsumedValueIsNoDefect | cppargs/parse.cpp:77-86 | `--s -x`, with `--s` taking any string, consumes `-x` as the value: no token the walk reads has a defect, and the parse succeeds |
| Examples.OnlyTheFirstDefectIsBlamed | cppargs/parse.cpp:54-98 | with nothing registered, `-x -y` is explained at `x`, the first defect, and the same error placed at `y` is not |
| Examples.ConsumedOptionTakesNoValue | cppargs/parse.cpp:77-124 | `--s --a hello`, with `--s` taking any string and `--a` an int: `--a` is the value of `--s`, so `hello` is reported as positional, and the record blaming it as a value `--a` rejects is not explained at the first defect |
| Examples.ConsumedOptionBeforeUnknownOption | cppargs/parse.cpp:68-86 | `--s --a --foo` with the same entries: `--foo` is reported as unrecognized, and the record blaming it as a value `--a` rejects is not explained at the first defect |

## Left out

- Concrete converters: `Argument<bool>` and the integer parsers are not part of this model. `validate` is an abstract predicate. The examples use a signed-decimal check that follows the expectations in tests/test.cpp:168-185.
- Null `argv[0]` on an error path: building a `std::string` from a null pointer is undefined behaviour. The model renders it as "", and every lemma about the joined line requires a non-null `argv[0]`.
- `std::size_t` width: columns and widths are unbounded `nat`. Overflow would need a line of 2^64 bytes. The only wrap-around that matters, at column 0, is modelled.
- `std::format` internals: padding is byte-count space padding, and a short name is one byte.
- C++ mechanics: `string_view` lifetimes, dangling pointers, move semantics and template machinery beyond the admissibility predicate are not modelled. The `Arguments` constructor, which stores the vector as given, is the datatype constructor. `info()` and `what()` are field reads.
- Duplicate names: no check exists in the source. The model uses first-match lookup, as the source does.
- ParseErrors.MakeException: the default branch of the `Exception` constructor (exception.cpp:34-38), which throws for a `Kind` outside the four enumerators, cannot be reached with a four-constructor datatype and is not modelled.
- ParseProperties.ParseErrorsExplained: as written, an `invalid_argument` error is not promised to be explained. The two short-option sites at parse.cpp:109 and :119 misplace it (see Findings). `ParseProperties.IntendedParseErrorsExplained` promises it for the corrected columns.
- ParseProperties.ShortClusterErrorExplained: the same exception, for the same reason. Every other cluster error is explained in both placements.
- ParseProperties.StepErrorExplained: the same exception, inherited from the cluster case.
- ParseProperties.WalkErrorExplained: the same exception, inherited from the step.
- ParseProperties.NextValueAsWrittenUnexplained: shown only for a value at least as long as the cluster offset. With a shorter value, the shifted column can land inside a later token that happens to satisfy an explanation of its own, so no statement covers every input.
- Legacy.Parse: the assertions `argc != 0` and `argv != nullptr` become a precondition. `argc` is otherwise unused, as in the source. `argv` is a sequence of non-null strings, so the model also excludes a null `argv[0]`, from which cppargs.cpp:60 would build a `string_view`, which is undefined behaviour.
- Test expectations: tests/test.cpp:67, 82, 111, 201, 219 and 237 expect messages such as "Unrecognized option: 'version'". exception.cpp:13 builds "Error: Unrecognized option 'version'". The model follows the code.
- Header and newer sources disagree: cppargs/cppargs.hpp:14-18 declares `Kind` without `invalid_argument`, and cppargs/cppargs.hpp:62-68 gives `Parameter_info` an `is_flag` field. The model follows parse.cpp and exception.cpp, which use a fourth kind and a nullable `validate`.

## Findings

| source | as written | input that shows it | evidently intended | confidence | as-written member | corrected member |
|---|---|---|---|---|---|---|
| cppargs/parse.cpp:109 | a rejected inline value is reported at the column of the option character (`offset`), with the value's width | `-a5x`, where `-a` takes an int: the error quotes "a5" | the column of the value's first byte (`offset + 1`), so the error quotes "5x" | high, not executed | ParseProperties.InlineValueAsWrittenUnexplained | ParseProperties.IntendedParseErrorsExplained |
| cppargs/parse.cpp:119 | a rejected value from the next token is reported at that token's column plus the option character's `offset` | `-a hello` quotes "ello". `-a ""` puts the column past the end of the line, so `substr` throws `std::out_of_range` instead of a `cppargs::Exception` | the value token's own column, so the error quotes "hello", and "" for an empty value | high, not executed | ParseProperties.NextValueAsWrittenUnexplained | ParseProperties.IntendedParseErrorsExplained |

=== FILE: arguments.dfy ===
/** `cppargs::Arguments` (arguments.cpp, cppargs.hpp): the slot vector a successful parse
    returns, read back through `argv_0` and `operator[]`. */
module ParsedArguments {
  import opened Wrappers
  import Parameters

  /** Slot 0 holds `argv[0]`; slot `i` holds the raw string stored for the parameter with
      index `i`. The constructor keeps the vector as given. */
  datatype Arguments = Arguments(slots: seq<Option<string>>)

  /** `argv_0`: the front slot. `front()` of an empty vector is undefined, hence the requires. */
  function ArgvZero(arguments: Arguments): Option<string>
    requires |arguments.slots| > 0
  {
    arguments.slots[0]
  }

  /** `operator[]`: `m_vector.at(parameter.index)`, which throws past the end. */
  function Get(arguments: Arguments, parameter: Parameters.Parameter): (r: Result<Option<string>, OutOfRange>)
    ensures r.Success? <==> parameter.index < |arguments.slots|
  {
    if parameter.index < |arguments.slots| then Success(arguments.slots[parameter.index])
    else Failure(OutOfRange)
  }
}

=== FILE: command_line.dfy ===
/** The helpers in parse.cpp's anonymous namespace: validity of the raw argument vector,
    the space-joined command line that error messages quote, and the column of a token in it. */
module CommandLine {
  import opened Wrappers

  /** `Command_line`: `argv` as a span of C strings; `None` is a null pointer. */
  type Argv = seq<Option<string>>

  /** `is_valid_command_line`: at least one element, and no null after `argv[0]`. */
  predicate IsValidCommandLine(argv: Argv)
  {
    |argv| > 0 && forall i :: 1 <= i < |argv| ==> argv[i].Some?
  }

  /** The bytes one element contributes to the joined line (a null contributes nothing). */
  function Text(token: Option<string>): string
  {
    match token
    case None => ""
    case Some(s) => s
  }

  /** The line `make_command_line_string` has built after its first `end` elements. */
  function LineUpTo(argv: Argv, end: nat): string
    requires 1 <= end <= |argv|
    decreases end
  {
    if end == 1 then Text(argv[0]) else LineUpTo(argv, end - 1) + " " + Text(argv[end - 1])
  }

  /** `make_command_line_string`: `argv[0]`, then each later element preceded by one space.
      The source asserts a valid command line first; a null `argv[0]` is undefined behaviour
      there and renders as "" here. */
  function MakeCommandLineString(argv: Argv): (line: string)
    requires |argv| > 0
  {
    LineUpTo(argv, |argv|)
  }

  /** `command_line_column(begin, begin + end)`: 1 plus, for each element before `end`,
      one separator and its length (nothing for a null element). */
  function CommandLineColumn(argv: Argv, end: nat): (column: nat)
    requires end <= |argv|
    ensures column >= 1
    ensures end > 0 && argv[0].Some? ==> column >= 2 + |argv[0].value|
    decreases end
  {
    if end == 0 then 1
    else CommandLineColumn(argv, end - 1) + (match argv[end - 1] case None => 0 case Some(s) => 1 + |s|)
  }

  /** With a non-null `argv[0]` and no null after it, the column one past the first `end`
      elements is the length of their line plus 2: one byte per separator and per character. */
  lemma {:induction false} LineUpToLength(argv: Argv, end: nat)
    requires IsValidCommandLine(argv) && argv[0].Some? && 1 <= end <= |argv|
    ensures |LineUpTo(argv, end)| + 2 == CommandLineColumn(argv, end)
    decreases end
  {
    if end > 1 {
      LineUpToLength(argv, end - 1);
    }
  }

  /** The column one past the last element is the joined line's length plus 2. */
  lemma LineLength(argv: Argv)
    requires IsValidCommandLine(argv) && argv[0].Some?
    ensures |MakeCommandLineString(argv)| + 2 == CommandLineColumn(argv, |argv|)
  {
    LineUpToLength(argv, |argv|);
  }

  /** Columns grow along `argv`: a later element starts past the end of an earlier one and
      the space after it. */
  lemma {:induction false} ColumnsIncrease(argv: Argv, a: nat, b: nat)
    requires IsValidCommandLine(argv) && 1 <= a < b <= |argv|
    ensures CommandLineColumn(argv, a) + |argv[a].value| + 1 <= CommandLineColumn(argv, b)
    decreases b
  {
    if b > a + 1 {
      ColumnsIncrease(argv, a, b - 1);
    }
  }

  /** `token` occupies the bytes `[start, start + |token|)` of `line`. */
  predicate Occurs(line: string, start: nat, token: string)
  {
    start + |token| <= |line| && line[start .. start + |token|] == token
  }

  /** `token` occurs at `start` in `line`, and when `spaced` a space comes right before it. */
  predicate Placed(line: string, start: nat, token: string, spaced: bool)
  {
    Occurs(line, start, token) && (spaced ==> start > 0 && line[start - 1] == ' ')
  }

  /** Element `k` sits at its column in the line of the first `end` elements, after a space
      unless it is `argv[0]`, and it ends that line when it is the last of them. */
  lemma {:induction false} TokenInLineUpTo(argv: Argv, k: nat, end: nat)
    requires IsValidCommandLine(argv) && argv[0].Some? && k < end <= |argv|
    ensures Placed(LineUpTo(argv, end), CommandLineColumn(argv, k) - 1, Text(argv[k]), k > 0)
    ensures k + 1 == end ==> CommandLineColumn(argv, k) - 1 + |Text(argv[k])| == |LineUpTo(argv, end)|
    decreases end
  {
    if k + 1 == end {
      LastTokenInLine(argv, k);
    } else {
      TokenInLineUpTo(argv, k, end - 1);
      EarlierTokenKept(argv, k, end);
    }
  }

  /** Appending element `end - 1` keeps an earlier element, and the space before it, in place. */
  lemma EarlierTokenKept(argv: Argv, k: nat, end: nat)
    requires 1 < end <= |argv| && k + 1 < end
    requires Placed(LineUpTo(argv, end - 1), CommandLineColumn(argv, k) - 1, Text(argv[k]), k > 0)
    ensures Placed(LineUpTo(argv, end), CommandLineColumn(argv, k) - 1, Text(argv[k]), k > 0)
  {
    var prefix := LineUpTo(argv, end - 1);
    var last := Text(argv[end - 1]);
    assert LineUpTo(argv, end) == prefix + " " + last;
    TokenSurvivesAppend(prefix, last, CommandLineColumn(argv, k) - 1, Text(argv[k]));
  }

  /** The last element of a line is its tail, after a space unless it is `argv[0]`. */
  lemma LastTokenInLine(argv: Argv, k: nat)
    requires IsValidCommandLine(argv) && argv[0].Some? && k < |argv|
    ensures Placed(LineUpTo(argv, k + 1), CommandLineColumn(argv, k) - 1, Text(argv[k]), k > 0)
    ensures CommandLineColumn(argv, k) - 1 + |Text(argv[k])| == |LineUpTo(argv, k + 1)|
  {
    var column := CommandLineColumn(argv, k);
    var token := Text(argv[k]);
    if k > 0 {
      var prefix := LineUpTo(argv, k);
      assert LineUpTo(argv, k + 1) == prefix + " " + token;
      LineUpToLength(argv, k);
      assert column - 1 == |prefix| + 1;
      LastPart(prefix, token);
    } else {
      assert LineUpTo(argv, 1) == token;
      assert token[0 .. |token|] == token;
    }
  }

  /** The central column fact: with a non-null `argv[0]`, element `k` occupies exactly the bytes
      `[column - 1, column - 1 + |element|)` of the joined line, where `column` is
      `command_line_column(begin, begin + k)`; a later element is preceded by a space, and the
      last element ends the line. */
  lemma ColumnLocatesToken(argv: Argv, k: nat)
    requires IsValidCommandLine(argv) && argv[0].Some?
    requires k < |argv|
    ensures var line := MakeCommandLineString(argv);
            var column := CommandLineColumn(argv, k);
            var token := Text(argv[k]);
            && column - 1 + |token| <= |line|
            && line[column - 1 .. column - 1 + |token|] == token
            && (k > 0 ==> line[column - 2] == ' ')
            && (k + 1 == |argv| ==> column - 1 + |token| == |line|)
  {
    TokenInLineUpTo(argv, k, |argv|);
  }

  /** The part after a space sits right after the prefix and the space. */
  lemma LastPart(prefix: string, last: string)
    ensures Occurs(prefix + " " + last, |prefix| + 1, last)
    ensures |prefix + " " + last| == |prefix| + 1 + |last|
    ensures (prefix + " " + last)[|prefix|] == ' '
  {
    assert (prefix + " " + last)[|prefix| + 1 ..] == last;
  }

  /** A token found in a string, and the byte before it, stay put when a space and another
      token are appended. */
  lemma TokenSurvivesAppend(prefix: string, last: string, start: nat, token: string)
    requires Occurs(prefix, start, token)
    ensures Occurs(prefix + " " + last, start, token)
    ensures start > 0 ==> (prefix + " " + last)[start - 1] == prefix[start - 1]
  {
    assert (prefix + " " + last)[start .. start + |token|] == prefix[start .. start + |token|];
  }

  /** The range `[from, to)` of token `k` sits at `column(k) + from` in the joined line. */
  lemma TokenSlice(argv: Argv, k: nat, from: nat, to: nat)
    requires IsValidCommandLine(argv) && argv[0].Some? && k < |argv|
    requires from <= to <= |argv[k].value|
    ensures var line := MakeCommandLineString(argv);
            var column := CommandLineColumn(argv, k);
            && column - 1 + to <= |line|
            && line[column - 1 + from .. column - 1 + to] == argv[k].value[from .. to]
            && (to == |argv[k].value| && k + 1 == |argv| ==> column - 1 + to == |line|)
  {
    var line := MakeCommandLineString(argv);
    var column := CommandLineColumn(argv, k);
    var token := argv[k].value;
    assert Text(argv[k]) == token;
    ColumnLocatesToken(argv, k);
    assert column - 1 + |token| <= |line| && line[column - 1 .. column - 1 + |token|] == token;
    SliceOfToken(line, column - 1, token, from, to);
  }

  /** Slicing the bytes of a located token picks out the same slice of the token. */
  lemma SliceOfToken(line: string, start: nat, token: string, from: nat, to: nat)
    requires start + |token| <= |line| && line[start .. start + |token|] == token
    requires from <= to <= |token|
    ensures line[start + from .. start + to] == token[from .. to]
  {
    forall i | 0 <= i < to - from
      ensures line[start + from .. start + to][i] == token[from .. to][i]
    {
      assert line[start + from + i] == line[start .. start + |token|][from + i];
    }
  }
}

=== FILE: errors.dfy ===
/** `cppargs::Parse_error_info` and `cppargs::Exception` (exception.cpp): the structured
    error a failed parse throws, and the message rendered from it. */
module ParseErrors {
  import opened Wrappers

  /** `Parse_error_info::Kind`, with the four enumerators exception.cpp switches over. */
  datatype Kind = UnrecognizedOption | MissingArgument | InvalidArgument | PositionalArgument

  /** `Parse_error_info`: the reconstructed command line, the kind, and the 1-based column
      and byte width of the offending substring. `std::size_t` becomes `nat`. */
  datatype ParseErrorInfo = ParseErrorInfo(commandLine: string, kind: Kind, errorColumn: nat, errorWidth: nat)

  /** `cppargs::Exception`: the message fixed at construction and the record it was built from. */
  datatype Exception = Exception(exceptionString: string, parseErrorInfo: ParseErrorInfo)

  /** `error_substring`: `substr(errorColumn - 1, errorWidth)` on the command line. The count is
      clamped at the end of the line; a start past the end throws, and so does column 0,
      whose `errorColumn - 1` wraps to the largest `std::size_t`. */
  function ErrorSubstring(info: ParseErrorInfo): (r: Result<string, OutOfRange>)
    ensures r.Success? <==> 1 <= info.errorColumn <= |info.commandLine| + 1
    ensures r.Success? ==>
              && |r.value| <= info.errorWidth
              && info.errorColumn - 1 + |r.value| <= |info.commandLine|
              && r.value == info.commandLine[info.errorColumn - 1 .. info.errorColumn - 1 + |r.value|]
    ensures r.Success? && info.errorColumn - 1 + info.errorWidth <= |info.commandLine| ==>
              |r.value| == info.errorWidth
    ensures r.Success? && |r.value| < info.errorWidth ==>
              info.errorColumn - 1 + |r.value| == |info.commandLine|
  {
    if info.errorColumn == 0 || info.errorColumn - 1 > |info.commandLine| then
      Failure(OutOfRange)
    else
      var start := info.errorColumn - 1;
      var end := if start + info.errorWidth <= |info.commandLine| then start + info.errorWidth
                 else |info.commandLine|;
      Success(info.commandLine[start .. end])
  }

  /** The phrase the `Exception` constructor chooses for each kind. */
  function Phrase(kind: Kind): string
  {
    match kind
    case MissingArgument => "Missing argument for parameter"
    case InvalidArgument => "Invalid argument"
    case UnrecognizedOption => "Unrecognized option"
    case PositionalArgument => "Positional arguments are not supported yet:"
  }

  /** `format_error`: `"Error: {} '{}'"` filled with the phrase and the offending substring. */
  function FormatError(phrase: string, info: ParseErrorInfo): (r: Result<string, OutOfRange>)
    ensures r.Success? <==> ErrorSubstring(info).Success?
  {
    match ErrorSubstring(info)
    case Failure(e) => Failure(e)
    case Success(sub) => Success(Message(phrase, sub))
  }

  /** The text `format_error` produces around a phrase and a substring. */
  function Message(phrase: string, sub: string): string
  {
    "Error: " + phrase + " '" + sub + "'"
  }

  /** Where the parts of a message sit: "Error: ", the phrase, a space, and the substring
      between single quotes, closing the message; ten bytes besides the phrase and the
      substring. */
  lemma MessageLayout(phrase: string, sub: string)
    ensures |Message(phrase, sub)| == |phrase| + |sub| + 10
    ensures var message := Message(phrase, sub);
            && message[..7] == "Error: " && message[7 .. 7 + |phrase|] == phrase
            && message[7 + |phrase| .. 9 + |phrase|] == " '"
            && message[9 + |phrase| .. |message| - 1] == sub && message[|message| - 1] == '\''
  {
  }

  /** The `Exception` constructor. With a four-constructor `Kind` the default branch, which
      rejects an enumerator outside the four, cannot be reached; what can still throw is the
      `substr` inside `error_substring`. */
  function MakeException(info: ParseErrorInfo): (r: Result<Exception, OutOfRange>)
    ensures r.Success? <==> ErrorSubstring(info).Success?
    ensures r.Success? ==> Info(r.value) == info
    ensures r.Success? ==> What(r.value) == Message(Phrase(info.kind), ErrorSubstring(info).value)
  {
    match FormatError(Phrase(info.kind), info)
    case Failure(e) => Failure(e)
    case Success(message) => Success(Exception(message, info))
  }

  /** `Exception::info`. */
  function Info(e: Exception): ParseErrorInfo
  {
    e.parseErrorInfo
  }

  /** `Exception::what`: a pure read of the stored message, so every call agrees. */
  function What(e: Exception): string
  {
    e.exceptionString
  }

  /** The message quotes, whole, the range its record names: the phrase of the recorded kind
      and the bytes `[errorColumn - 1, errorColumn - 1 + errorWidth)` of the line. */
  predicate QuotesItsRange(x: Exception)
  {
    var info := Info(x);
    && 1 <= info.errorColumn && info.errorColumn - 1 + info.errorWidth <= |info.commandLine|
    && What(x) == Message(Phrase(info.kind), info.commandLine[info.errorColumn - 1 .. info.errorColumn - 1 + info.errorWidth])
  }

  /** A record whose range lies inside its line builds an exception, and the message quotes
      exactly that range. */
  lemma InRangeQuotes(info: ParseErrorInfo)
    requires 1 <= info.errorColumn && info.errorColumn - 1 + info.errorWidth <= |info.commandLine|
    ensures ErrorSubstring(info) == Success(info.commandLine[info.errorColumn - 1 .. info.errorColumn - 1 + info.errorWidth])
    ensures MakeException(info).Success? && QuotesItsRange(MakeException(info).value)
  {
    var sub := ErrorSubstring(info).value;
    assert sub == info.commandLine[info.errorColumn - 1 .. info.errorColumn - 1 + info.errorWidth];
  }

  /** The letter each phrase begins with; the four are distinct. */
  function Initial(kind: Kind): char
  {
    match kind
    case MissingArgument => 'M'
    case InvalidArgument => 'I'
    case UnrecognizedOption => 'U'
    case PositionalArgument => 'P'
  }

  /** The byte right after "Error: " is the initial of the phrase. */
  lemma MessageInitial(kind: Kind, sub: string)
    ensures |Message(Phrase(kind), sub)| > 7 && Message(Phrase(kind), sub)[7] == Initial(kind)
  {
    var phrase := Phrase(kind);
    assert phrase[0] == Initial(kind);
    assert Message(phrase, sub) == "Error: " + (phrase + " '" + sub + "'");
  }

  /** The four phrases begin with four distinct letters, found right after "Error: ", so a
      message names the kind it was built from. */
  lemma MessageDeterminesKind(k1: Kind, s1: string, k2: Kind, s2: string)
    requires Message(Phrase(k1), s1) == Message(Phrase(k2), s2)
    ensures k1 == k2
  {
    MessageInitial(k1, s1);
    MessageInitial(k2, s2);
  }

  /** A message determines both the kind and the substring it was built from: no information
      is lost in rendering. */
  lemma {:induction false} MessageDeterminesError(k1: Kind, s1: string, k2: Kind, s2: string)
    requires Message(Phrase(k1), s1) == Message(Phrase(k2), s2)
    ensures k1 == k2 && s1 == s2
  {
    MessageDeterminesKind(k1, s1, k2, s2);
    var prefix := "Error: " + Phrase(k1) + " '";
    assert Message(Phrase(k1), s1) == prefix + s1 + "'";
    assert Message(Phrase(k2), s2) == prefix + s2 + "'";
    assert s1 == (prefix + s1 + "'")[|prefix| .. |prefix| + |s1|];
  }

  /** The exception message is "Error: " followed by the phrase of the recorded kind and the
      quoted substring, and the record is returned by `info()` unchanged. */
  lemma ExceptionRoundTrip(info: ParseErrorInfo, e: Exception, k: Kind, sub: string)
    requires MakeException(info) == Success(e)
    requires What(e) == Message(Phrase(k), sub)
    ensures k == Info(e).kind
    ensures ErrorSubstring(Info(e)) == Success(sub)
  {
    MessageDeterminesError(k, sub, info.kind, ErrorSubstring(info).value);
  }
}

=== FILE: examples.dfy ===
/** Concrete runs of the model on the command lines of the repository's test suite, and the
    inputs that show the two misplaced short-option error columns. */
module Examples {
  import opened Wrappers
  import opened CommandLine
  import opened ParseErrors
  import opened Parameters
  import opened ParsedArguments
  import opened Parser
  import ParseProperties
  import Occurrences

  /** A decimal integer as the tests expect `Argument<int>` to read one: an optional `-`,
      then one or more digits, nothing else (a leading `+` is refused). */
  predicate IsSignedDecimal(s: string)
  {
    if |s| > 0 && s[0] == '-' then AllDigits(s[1..]) else AllDigits(s)
  }

  predicate AllDigits(s: string)
  {
    |s| > 0 && forall i :: 0 <= i < |s| ==> '0' <= s[i] <= '9'
  }

  /** The string types accept every argument. */
  predicate AnyString(s: string)
  {
    true
  }

  function Flag(shortName: Option<char>, longName: string, index: nat): ParameterInfo
  {
    ParameterInfo(None, longName, shortName, "", index)
  }

  function IntOption(shortName: Option<char>, longName: string, index: nat): ParameterInfo
  {
    ParameterInfo(Some(IsSignedDecimal), longName, shortName, "", index)
  }

  /** A token `-x...` with a second character other than `-` is a cluster and not a long option. */
  lemma ClusterToken(s: string)
    requires |s| >= 2 && s[0] == '-' && s[1] != '-'
    ensures !IsLongOptionToken(s) && IsClusterToken(s)
  {
    assert s[..2][1] == s[1];
    assert "--"[1] == '-';
  }

  /** A short name registered exactly once is found at its one position. */
  lemma FindsOnlyShort(registry: Registry, c: char, j: nat)
    requires j < |registry| && registry[j].shortName == Some(c)
    requires forall k :: 0 <= k < |registry| && k != j ==> registry[k].shortName != Some(c)
    ensures FindShort(registry, c) == Some(j)
  {
  }

  /** A word that does not start with `-` and holds a non-digit is not a decimal. */
  lemma NotDecimal(s: string, i: nat)
    requires i < |s| && s[0] != '-' && !('0' <= s[i] <= '9')
    ensures !IsSignedDecimal(s)
  {
  }

  /** The middle part of a three-part string sits right after the first part. */
  lemma Middle(a: string, b: string, c: string)
    ensures (a + b + c)[|a| .. |a| + |b|] == b
  {
  }

  /** A walk that fails with an error whose substring can be taken is thrown as a
      `cppargs::Exception` quoting that substring. */
  lemma ThrownAs(placement: Placement, argv: Argv, registry: Registry, e: ParseErrorInfo, sub: string)
    requires IsValidCommandLine(argv)
    requires Walk(placement, argv, registry, 1, InitialSlots(argv, |registry|)) == Failure(e)
    requires ErrorSubstring(e) == Success(sub)
    ensures ParseWith(placement, argv, registry) == Failure(Thrown(Exception(Message(Phrase(e.kind), sub), e)))
  {
  }

  /** A failed walk over a valid command line is what `parse` reports: the record as built, and
      the message quoting the bytes at the record's column. */
  lemma Reported(argv: Argv, registry: Registry, e: ParseErrorInfo, before: string, sub: string, after: string)
    requires IsValidCommandLine(argv)
    requires Walk(AsWritten, argv, registry, 1, InitialSlots(argv, |registry|)) == Failure(e)
    requires e.commandLine == before + sub + after && e.errorColumn == |before| + 1 && e.errorWidth == |sub|
    ensures var r := Parse(argv, registry);
            && r.Failure? && r.error.Thrown?
            && Info(r.error.exception) == e
            && What(r.error.exception) == Message(Phrase(e.kind), sub)
  {
    Middle(before, sub, after);
    ThrownAs(AsWritten, argv, registry, e, sub);
  }

  /** The walk for the example below. */
  lemma UnrecognizedLongOptionWalk()
    ensures var argv := [Some("cppargstest"), Some("--version")];
            var registry: Registry := [];
            && IsValidCommandLine(argv)
            && Walk(AsWritten, argv, registry, 1, InitialSlots(argv, |registry|)) == Failure(ParseErrorInfo("cppargstest --version", UnrecognizedOption, 15, 7))
  {
    var argv := [Some("cppargstest"), Some("--version")];
    var registry: Registry := [];
    var line := "cppargstest --version";
    assert IsValidCommandLine(argv);
    assert MakeCommandLineString(argv) == line by {
      assert LineUpTo(argv, 1) == "cppargstest";
    }
    assert CommandLineColumn(argv, 1) == 13;
    assert IsLongOptionToken("--version");
    assert "--version"[2..] == "version";
    var e := ParseErrorInfo(line, UnrecognizedOption, 15, 7);
    assert LongOption(argv, registry, 1, InitialSlots(argv, 0)) == Failure(e);
  }

  /** `--version` with nothing registered: unrecognized, at the name after `--`. */
  lemma UnrecognizedLongOption()
    ensures var r := Parse([Some("cppargstest"), Some("--version")], []);
            && r.Failure? && r.error.Thrown?
            && Info(r.error.exception) == ParseErrorInfo("cppargstest --version", UnrecognizedOption, 15, 7)
            && What(r.error.exception) == Message("Unrecognized option", "version")
  {
    var argv := [Some("cppargstest"), Some("--version")];
    var registry: Registry := [];
    var line := "cppargstest --version";
    var e := ParseErrorInfo(line, UnrecognizedOption, 15, 7);
    UnrecognizedLongOptionWalk();
    Reported(argv, registry, e, "cppargstest --", "version", "");
  }

  /** The walk for the example below. */
  lemma UnrecognizedShortOptionInClusterWalk()
    ensures var argv := [Some("cppargstest"), Some("-vx")];
            var registry: Registry := [Flag(Some('h'), "help", 1), Flag(Some('v'), "version", 2)];
            && IsValidCommandLine(argv)
            && Walk(AsWritten, argv, registry, 1, InitialSlots(argv, |registry|)) == Failure(ParseErrorInfo("cppargstest -vx", UnrecognizedOption, 15, 1))
  {
    var argv := [Some("cppargstest"), Some("-vx")];
    var registry: Registry := [Flag(Some('h'), "help", 1), Flag(Some('v'), "version", 2)];
    var line := "cppargstest -vx";
    assert IsValidCommandLine(argv);
    assert MakeCommandLineString(argv) == line by {
      assert LineUpTo(argv, 1) == "cppargstest";
    }
    assert CommandLineColumn(argv, 1) == 13;
    ClusterToken("-vx");
    var slots := InitialSlots(argv, 2);
    FindsOnlyShort(registry, 'v', 1);
    assert FindShort(registry, 'x') == None;
    var e := ParseErrorInfo(line, UnrecognizedOption, 15, 1);
    assert ShortCluster(AsWritten, argv, registry, 1, 2, slots[2 := Some("")]) == Failure(e);
    assert ShortCluster(AsWritten, argv, registry, 1, 1, slots) == Failure(e);
  }

  /** `-vx` with flags h and v: v is set, then x is unrecognized at its own column. */
  lemma UnrecognizedShortOptionInCluster()
    ensures var registry: Registry := [Flag(Some('h'), "help", 1), Flag(Some('v'), "version", 2)];
            var r := Parse([Some("cppargstest"), Some("-vx")], registry);
            && r.Failure? && r.error.Thrown?
            && Info(r.error.exception) == ParseErrorInfo("cppargstest -vx", UnrecognizedOption, 15, 1)
            && What(r.error.exception) == Message("Unrecognized option", "x")
  {
    var argv := [Some("cppargstest"), Some("-vx")];
    var registry: Registry := [Flag(Some('h'), "help", 1), Flag(Some('v'), "version", 2)];
    var line := "cppargstest -vx";
    var e := ParseErrorInfo(line, UnrecognizedOption, 15, 1);
    UnrecognizedShortOptionInClusterWalk();
    Reported(argv, registry, e, "cppargstest -v", "x", "");
  }

  /** The walk for the example below. */
  lemma MissingArgumentForLongOptionWalk()
    ensures var argv := [Some("cppargstest"), Some("--interesting")];
            var registry: Registry := [IntOption(None, "interesting", 1)];
            && IsValidCommandLine(argv)
            && Walk(AsWritten, argv, registry, 1, InitialSlots(argv, |registry|)) == Failure(ParseErrorInfo("cppargstest --interesting", MissingArgument, 15, 11))
  {
    var argv := [Some("cppargstest"), Some("--interesting")];
    var registry: Registry := [IntOption(None, "interesting", 1)];
    var line := "cppargstest --interesting";
    assert IsValidCommandLine(argv);
    assert MakeCommandLineString(argv) == line by {
      assert LineUpTo(argv, 1) == "cppargstest";
    }
    assert CommandLineColumn(argv, 1) == 13;
    assert IsLongOptionToken("--interesting");
    assert "--interesting"[2..] == "interesting";
    assert FindLong(registry, "interesting") == Some(0);
    var e := ParseErrorInfo(line, MissingArgument, 15, 11);
    assert LongOption(argv, registry, 1, InitialSlots(argv, 1)) == Failure(e);
  }

  /** `--interesting` last, for an int option: missing argument, at the name. */
  lemma MissingArgumentForLongOption()
    ensures var registry: Registry := [IntOption(None, "interesting", 1)];
            var r := Parse([Some("cppargstest"), Some("--interesting")], registry);
            && r.Failure? && r.error.Thrown?
            && Info(r.error.exception) == ParseErrorInfo("cppargstest --interesting", MissingArgument, 15, 11)
            && What(r.error.exception) == Message("Missing argument for parameter", "interesting")
  {
    var argv := [Some("cppargstest"), Some("--interesting")];
    var registry: Registry := [IntOption(None, "interesting", 1)];
    var line := "cppargstest --interesting";
    var e := ParseErrorInfo(line, MissingArgument, 15, 11);
    MissingArgumentForLongOptionWalk();
    Reported(argv, registry, e, "cppargstest --", "interesting", "");
  }

  /** The joined line and the value's column for `--interesting hello`. */
  lemma InvalidArgumentLine()
    ensures var argv := [Some("cppargstest"), Some("--interesting"), Some("hello")];
            && IsValidCommandLine(argv)
            && MakeCommandLineString(argv) == "cppargstest --interesting hello"
            && CommandLineColumn(argv, 1) == 13
            && CommandLineColumn(argv, 2) == 27
  {
    var argv := [Some("cppargstest"), Some("--interesting"), Some("hello")];
    assert IsValidCommandLine(argv);
    assert MakeCommandLineString(argv) == "cppargstest --interesting hello" by {
      assert LineUpTo(argv, 1) == "cppargstest";
      assert LineUpTo(argv, 2) == "cppargstest --interesting";
    }
    assert CommandLineColumn(argv, 1) == 13;
  }

  /** The walk for the example below. */
  lemma InvalidArgumentWalk()
    ensures var argv := [Some("cppargstest"), Some("--interesting"), Some("hello")];
            var registry: Registry := [IntOption(None, "interesting", 1)];
            Walk(AsWritten, argv, registry, 1, InitialSlots(argv, 1))
              == Failure(ParseErrorInfo("cppargstest --interesting hello", InvalidArgument, 27, 5))
  {
    var argv := [Some("cppargstest"), Some("--interesting"), Some("hello")];
    var registry: Registry := [IntOption(None, "interesting", 1)];
    InvalidArgumentLine();
    assert IsLongOptionToken("--interesting");
    assert "--interesting"[2..] == "interesting";
    assert FindLong(registry, "interesting") == Some(0);
    NotDecimal("hello", 0);
    var e := ParseErrorInfo("cppargstest --interesting hello", InvalidArgument, 27, 5);
    assert LongOption(argv, registry, 1, InitialSlots(argv, 1)) == Failure(e);
  }

  /** `--interesting hello` for an int option: invalid argument, at the value token. */
  lemma InvalidArgumentForLongOption()
    ensures var registry: Registry := [IntOption(None, "interesting", 1)];
            var r := Parse([Some("cppargstest"), Some("--interesting"), Some("hello")], registry);
            && r.Failure? && r.error.Thrown?
            && Info(r.error.exception) == ParseErrorInfo("cppargstest --interesting hello", InvalidArgument, 27, 5)
            && What(r.error.exception) == Message("Invalid argument", "hello")
  {
    var argv := [Some("cppargstest"), Some("--interesting"), Some("hello")];
    var registry: Registry := [IntOption(None, "interesting", 1)];
    var line := "cppargstest --interesting hello";
    var e := ParseErrorInfo(line, InvalidArgument, 27, 5);
    InvalidArgumentWalk();
    Reported(argv, registry, e, "cppargstest --interesting ", "hello", "");
  }

  /** The walk for the example below. */
  lemma PositionalArgumentRejectedWalk()
    ensures var argv := [Some("cppargstest"), Some("hello")];
            var registry: Registry := [Flag(None, "help", 1)];
            && IsValidCommandLine(argv)
            && Walk(AsWritten, argv, registry, 1, InitialSlots(argv, |registry|)) == Failure(ParseErrorInfo("cppargstest hello", PositionalArgument, 13, 5))
  {
    var argv := [Some("cppargstest"), Some("hello")];
    var registry: Registry := [Flag(None, "help", 1)];
    var line := "cppargstest hello";
    assert IsValidCommandLine(argv);
    assert MakeCommandLineString(argv) == line by {
      assert LineUpTo(argv, 1) == "cppargstest";
    }
    assert CommandLineColumn(argv, 1) == 13;
    assert "hello"[..2][0] == 'h';
    assert !IsLongOptionToken("hello") && !IsClusterToken("hello");
    var e := ParseErrorInfo(line, PositionalArgument, 13, 5);
    assert Step(AsWritten, argv, registry, 1, InitialSlots(argv, 1)) == Failure(e);
  }

  /** `hello` is a positional argument: the whole token is reported. */
  lemma PositionalArgumentRejected()
    ensures var registry: Registry := [Flag(None, "help", 1)];
            var r := Parse([Some("cppargstest"), Some("hello")], registry);
            && r.Failure? && r.error.Thrown?
            && Info(r.error.exception) == ParseErrorInfo("cppargstest hello", PositionalArgument, 13, 5)
            && What(r.error.exception) == Message("Positional arguments are not supported yet:", "hello")
  {
    var argv := [Some("cppargstest"), Some("hello")];
    var registry: Registry := [Flag(None, "help", 1)];
    var line := "cppargstest hello";
    var e := ParseErrorInfo(line, PositionalArgument, 13, 5);
    PositionalArgumentRejectedWalk();
    Reported(argv, registry, e, "cppargstest ", "hello", "");
  }

  /** `-cbabc` with int a, string b and flag c: c is set, b takes "abc", a stays absent. */
  lemma ClusterWithInlineValue()
    ensures var registry: Registry := [
              IntOption(Some('a'), "aaa", 1),
              ParameterInfo(Some(AnyString), "bbb", Some('b'), "", 2),
              Flag(Some('c'), "ccc", 3)];
            Parse([Some("cppargstest"), Some("-cbabc")], registry)
            == Success(Arguments([Some("cppargstest"), None, Some("abc"), Some("")]))
  {
    var argv := [Some("cppargstest"), Some("-cbabc")];
    var registry: Registry := [
      IntOption(Some('a'), "aaa", 1),
      ParameterInfo(Some(AnyString), "bbb", Some('b'), "", 2),
      Flag(Some('c'), "ccc", 3)];
    assert IsValidCommandLine(argv);
    var token := "-cbabc";
    ClusterToken(token);
    var slots := InitialSlots(argv, 3);
    assert slots == [Some("cppargstest"), None, None, None];
    FindsOnlyShort(registry, 'c', 2);
    FindsOnlyShort(registry, 'b', 1);
    assert token[3..] == "abc";
    var after := [Some("cppargstest"), None, Some("abc"), Some("")];
    assert slots[3 := Some("")][2 := Some("abc")] == after;
    assert ShortCluster(AsWritten, argv, registry, 1, 2, slots[3 := Some("")]) == Success(Progress(after, 2));
    assert ShortCluster(AsWritten, argv, registry, 1, 1, slots) == Success(Progress(after, 2));
    assert Walk(AsWritten, argv, registry, 1, slots) == Success(after);
  }

  /** `-a56 -b qwerty`: a takes the rest of its token, b takes the next token, c stays absent. */
  lemma ShortOptionsWithValues()
    ensures var registry: Registry := [
              IntOption(Some('a'), "aaa", 1),
              ParameterInfo(Some(AnyString), "bbb", Some('b'), "", 2),
              Flag(Some('c'), "ccc", 3)];
            Parse([Some("cppargstest"), Some("-a56"), Some("-b"), Some("qwerty")], registry)
            == Success(Arguments([Some("cppargstest"), Some("56"), Some("qwerty"), None]))
  {
    var argv := [Some("cppargstest"), Some("-a56"), Some("-b"), Some("qwerty")];
    var registry: Registry := [
      IntOption(Some('a'), "aaa", 1),
      ParameterInfo(Some(AnyString), "bbb", Some('b'), "", 2),
      Flag(Some('c'), "ccc", 3)];
    assert IsValidCommandLine(argv);
    ClusterToken("-a56");
    ClusterToken("-b");
    var slots := InitialSlots(argv, 3);
    assert slots == [Some("cppargstest"), None, None, None];
    FindsOnlyShort(registry, 'a', 0);
    FindsOnlyShort(registry, 'b', 1);
    assert "-a56"[2..] == "56";
    assert IsSignedDecimal("56");
    var first := [Some("cppargstest"), Some("56"), None, None];
    assert slots[1 := Some("56")] == first;
    assert ShortCluster(AsWritten, argv, registry, 1, 1, slots) == Success(Progress(first, 2));
    var second := [Some("cppargstest"), Some("56"), Some("qwerty"), None];
    assert first[2 := Some("qwerty")] == second;
    assert ShortCluster(AsWritten, argv, registry, 2, 1, first) == Success(Progress(second, 4));
    assert Walk(AsWritten, argv, registry, 4, second) == Success(second);
    assert Walk(AsWritten, argv, registry, 2, first) == Success(second);
    assert Walk(AsWritten, argv, registry, 1, slots) == Success(second);
  }

  /** As written, an inline value rejected after `-a` is reported from the option character
      with the value's width: `-a5x` quotes "a5", where the value is "5x". No token of the line
      explains that record; the intended one is explained. */
  lemma InlineValueErrorAsWritten()
    ensures var registry: Registry := [IntOption(Some('a'), "aaa", 1)];
            var argv := [Some("p"), Some("-a5x")];
            var r := Parse(argv, registry);
            var intended := ParseIntended(argv, registry);
            && r.Failure? && r.error.Thrown?
            && Info(r.error.exception) == ParseErrorInfo("p -a5x", InvalidArgument, 4, 2)
            && ErrorSubstring(Info(r.error.exception)) == Success("a5")
            && !ParseProperties.Explains(argv, registry, Info(r.error.exception))
            && intended.Failure? && intended.error.Thrown?
            && ErrorSubstring(Info(intended.error.exception)) == Success("5x")
            && ParseProperties.ExplainedAtFirstDefect(argv, registry, Info(intended.error.exception))
  {
    var argv := [Some("p"), Some("-a5x")];
    var registry: Registry := [IntOption(Some('a'), "aaa", 1)];
    var line := "p -a5x";
    assert IsValidCommandLine(argv);
    assert MakeCommandLineString(argv) == line by {
      assert LineUpTo(argv, 1) == "p";
    }
    assert CommandLineColumn(argv, 1) == 3;
    ClusterToken("-a5x");
    FindsOnlyShort(registry, 'a', 0);
    assert "-a5x"[2..] == "5x";
    NotDecimal("5x", 1);
    var slots := InitialSlots(argv, 1);
    var e := ParseErrorInfo(line, InvalidArgument, 4, 2);
    assert ShortCluster(AsWritten, argv, registry, 1, 1, slots) == Failure(e);
    assert Walk(AsWritten, argv, registry, 1, slots) == Failure(e);
    assert ErrorSubstring(e) == Success("a5") by {
      Middle("p -", "a5", "x");
      assert line == "p -" + "a5" + "x";
    }
    ThrownAs(AsWritten, argv, registry, e, "a5");
    ParseProperties.InlineValueAsWrittenUnexplained(argv, registry, 1, 1);
    var e' := ParseErrorInfo(line, InvalidArgument, 5, 2);
    assert ShortCluster(Intended, argv, registry, 1, 1, slots) == Failure(e');
    assert Walk(Intended, argv, registry, 1, slots) == Failure(e');
    assert ErrorSubstring(e') == Success("5x") by {
      Middle("p -a", "5x", "");
      assert line == "p -a" + "5x" + "";
    }
    ThrownAs(Intended, argv, registry, e', "5x");
    ParseProperties.IntendedParseErrorsExplained(argv, registry);
  }

  /** As written, a value taken from the next token after a short option is reported at that
      token's column plus the option's offset. For `-a ""` the column lies past the end of the
      line, so building the message throws `std::out_of_range` instead of a
      `cppargs::Exception`; the intended placement reports the empty value itself. */
  lemma NextTokenValueErrorAsWritten()
    ensures var registry: Registry := [IntOption(Some('a'), "aaa", 1)];
            var argv := [Some("p"), Some("-a"), Some("")];
            var intended := ParseIntended(argv, registry);
            && Parse(argv, registry) == Failure(SubstringOutOfRange)
            && intended.Failure? && intended.error.Thrown?
            && Info(intended.error.exception) == ParseErrorInfo("p -a ", InvalidArgument, 6, 0)
  {
    var argv := [Some("p"), Some("-a"), Some("")];
    var registry: Registry := [IntOption(Some('a'), "aaa", 1)];
    var line := "p -a ";
    assert IsValidCommandLine(argv);
    assert MakeCommandLineString(argv) == line by {
      assert LineUpTo(argv, 1) == "p";
      assert LineUpTo(argv, 2) == "p -a";
    }
    assert CommandLineColumn(argv, 2) == 6;
    ClusterToken("-a");
    FindsOnlyShort(registry, 'a', 0);
    assert !IsSignedDecimal("");
    var slots := InitialSlots(argv, 1);
    var e := ParseErrorInfo(line, InvalidArgument, 7, 0);
    assert ShortCluster(AsWritten, argv, registry, 1, 1, slots) == Failure(e);
    assert Walk(AsWritten, argv, registry, 1, slots) == Failure(e);
    assert ErrorSubstring(e) == Failure(OutOfRange);
    var e' := ParseErrorInfo(line, InvalidArgument, 6, 0);
    assert ShortCluster(Intended, argv, registry, 1, 1, slots) == Failure(e');
    assert Walk(Intended, argv, registry, 1, slots) == Failure(e');
    assert ErrorSubstring(e') == Success("");
    ThrownAs(Intended, argv, registry, e', "");
  }

  /** As written, `-a hello` quotes "ello": the shifted column drops the value's first byte,
      and no token of the line explains the record; the intended one is explained. */
  lemma NextTokenValueErrorShifted()
    ensures var registry: Registry := [IntOption(Some('a'), "aaa", 1)];
            var argv := [Some("p"), Some("-a"), Some("hello")];
            var r := Parse(argv, registry);
            var intended := ParseIntended(argv, registry);
            && r.Failure? && r.error.Thrown?
            && Info(r.error.exception) == ParseErrorInfo("p -a hello", InvalidArgument, 7, 5)
            && ErrorSubstring(Info(r.error.exception)) == Success("ello")
            && !ParseProperties.Explains(argv, registry, Info(r.error.exception))
            && intended.Failure? && intended.error.Thrown?
            && ErrorSubstring(Info(intended.error.exception)) == Success("hello")
            && ParseProperties.ExplainedAtFirstDefect(argv, registry, Info(intended.error.exception))
  {
    var argv := [Some("p"), Some("-a"), Some("hello")];
    var registry: Registry := [IntOption(Some('a'), "aaa", 1)];
    var line := "p -a hello";
    assert IsValidCommandLine(argv);
    assert MakeCommandLineString(argv) == line by {
      assert LineUpTo(argv, 1) == "p";
      assert LineUpTo(argv, 2) == "p -a";
    }
    assert CommandLineColumn(argv, 2) == 6;
    ClusterToken("-a");
    FindsOnlyShort(registry, 'a', 0);
    NotDecimal("hello", 0);
    var slots := InitialSlots(argv, 1);
    var e := ParseErrorInfo(line, InvalidArgument, 7, 5);
    assert ShortCluster(AsWritten, argv, registry, 1, 1, slots) == Failure(e);
    assert Walk(AsWritten, argv, registry, 1, slots) == Failure(e);
    assert ErrorSubstring(e) == Success("ello") by {
      Middle("p -a h", "ello", "");
      assert line == "p -a h" + "ello" + "";
    }
    ThrownAs(AsWritten, argv, registry, e, "ello");
    ParseProperties.NextValueAsWrittenUnexplained(argv, registry, 1, 1);
    var e' := ParseErrorInfo(line, InvalidArgument, 6, 5);
    assert ShortCluster(Intended, argv, registry, 1, 1, slots) == Failure(e');
    assert Walk(Intended, argv, registry, 1, slots) == Failure(e');
    assert ErrorSubstring(e') == Success("hello") by {
      Middle("p -a ", "hello", "");
      assert line == "p -a " + "hello" + "";
    }
    ThrownAs(Intended, argv, registry, e', "hello");
    ParseProperties.IntendedParseErrorsExplained(argv, registry);
  }


  /** `--s` takes the next token whatever it is, so `-x` is consumed as its value: the walk
      reads no defective token, and the parse succeeds. */
  lemma ConsumedValueIsNoDefect()
    ensures var argv := [Some("p"), Some("--s"), Some("-x")];
            var registry: Registry := [ParameterInfo(Some(AnyString), "s", None, "", 1)];
            && IsValidCommandLine(argv)
            && ParseIntended(argv, registry).Success?
            && forall s :: !ParseProperties.FirstDefect(argv, registry, 1, s)
  {
    var argv := [Some("p"), Some("--s"), Some("-x")];
    var registry: Registry := [ParameterInfo(Some(AnyString), "s", None, "", 1)];
    assert IsValidCommandLine(argv);
    assert IsLongOptionToken("--s") && "--s"[2..] == "s";
    assert FindLong(registry, "s") == Some(0);
    assert Walk(Intended, argv, registry, 1, InitialSlots(argv, 1)).Success?;
    ParseProperties.WalkFailsOnDefect(Intended, argv, registry, 1, InitialSlots(argv, 1));
  }

  /** With nothing registered, `-x -y` stops at `x`: an error at `x` is explained at the first
      defect, and the same error at `y` is not. */
  lemma OnlyTheFirstDefectIsBlamed()
    ensures var argv := [Some("p"), Some("-x"), Some("-y")];
            var registry: Registry := [];
            && IsValidCommandLine(argv)
            && ParseProperties.ExplainedAtFirstDefect(argv, registry, ParseErrorInfo("p -x -y", UnrecognizedOption, 4, 1))
            && !ParseProperties.ExplainedAtFirstDefect(argv, registry, ParseErrorInfo("p -x -y", UnrecognizedOption, 7, 1))
  {
    var argv := [Some("p"), Some("-x"), Some("-y")];
    var registry: Registry := [];
    assert IsValidCommandLine(argv);
    assert MakeCommandLineString(argv) == "p -x -y" by {
      assert LineUpTo(argv, 1) == "p";
      assert LineUpTo(argv, 2) == "p -x";
    }
    assert CommandLineColumn(argv, 1) == 3;
    ClusterToken("-x");
    assert Occurrences.NameStart(registry, "-x", 1);
    assert ParseProperties.NameDefect(argv, registry, 1, 1);
    assert ParseProperties.DefectAt(argv, registry, 1);
    assert ParseProperties.FirstDefect(argv, registry, 1, 1);
    assert ParseProperties.ExplainsOnToken(argv, registry, ParseErrorInfo("p -x -y", UnrecognizedOption, 4, 1), 1, 1);
    forall s | ParseProperties.FirstDefect(argv, registry, 1, s) ensures s == 1 {
    }
  }

  /** `--s` takes any string, so it takes `--a` as its value and the walk never reads `--a`:
      `hello` is the first defect, a positional argument, and the record blaming `hello` as a
      value `--a` rejects is not explained there. */
  lemma ConsumedOptionTakesNoValue()
    ensures var argv := [Some("p"), Some("--s"), Some("--a"), Some("hello")];
            var registry: Registry := [ParameterInfo(Some(AnyString), "s", None, "", 1), IntOption(None, "a", 2)];
            var r := ParseIntended(argv, registry);
            && r.Failure? && r.error.Thrown?
            && Info(r.error.exception) == ParseErrorInfo("p --s --a hello", PositionalArgument, 11, 5)
            && !ParseProperties.ExplainedAtFirstDefect(argv, registry, ParseErrorInfo("p --s --a hello", InvalidArgument, 11, 5))
  {
    var argv := [Some("p"), Some("--s"), Some("--a"), Some("hello")];
    var registry: Registry := [ParameterInfo(Some(AnyString), "s", None, "", 1), IntOption(None, "a", 2)];
    var line := "p --s --a hello";
    assert IsValidCommandLine(argv);
    assert MakeCommandLineString(argv) == line by {
      assert LineUpTo(argv, 1) == "p";
      assert LineUpTo(argv, 2) == "p --s";
      assert LineUpTo(argv, 3) == "p --s --a";
    }
    assert CommandLineColumn(argv, 3) == 11;
    assert IsLongOptionToken("--s") && "--s"[2..] == "s";
    assert FindLong(registry, "s") == Some(0);
    assert "hello"[..2][0] == 'h';
    assert !IsLongOptionToken("hello") && !IsClusterToken("hello");
    var slots := InitialSlots(argv, 2);
    var e := ParseErrorInfo(line, PositionalArgument, 11, 5);
    var next := Step(Intended, argv, registry, 1, slots);
    assert next.Success? && next.value.next == 3;
    assert Walk(Intended, argv, registry, 3, next.value.slots) == Failure(e);
    assert ErrorSubstring(e) == Success("hello") by {
      Middle("p --s --a ", "hello", "");
      assert line == "p --s --a " + "hello" + "";
    }
    ThrownAs(Intended, argv, registry, e, "hello");
    ParseProperties.IntendedParseErrorsExplained(argv, registry);
  }

  /** The same with `--foo` in place of `hello`: the walk reads `--foo` as an option it does not
      know, and only that record is explained at the first defect. */
  lemma ConsumedOptionBeforeUnknownOption()
    ensures var argv := [Some("p"), Some("--s"), Some("--a"), Some("--foo")];
            var registry: Registry := [ParameterInfo(Some(AnyString), "s", None, "", 1), IntOption(None, "a", 2)];
            var r := ParseIntended(argv, registry);
            && r.Failure? && r.error.Thrown?
            && Info(r.error.exception) == ParseErrorInfo("p --s --a --foo", UnrecognizedOption, 13, 3)
            && !ParseProperties.ExplainedAtFirstDefect(argv, registry, ParseErrorInfo("p --s --a --foo", InvalidArgument, 11, 5))
  {
    var argv := [Some("p"), Some("--s"), Some("--a"), Some("--foo")];
    var registry: Registry := [ParameterInfo(Some(AnyString), "s", None, "", 1), IntOption(None, "a", 2)];
    var line := "p --s --a --foo";
    assert IsValidCommandLine(argv);
    assert MakeCommandLineString(argv) == line by {
      assert LineUpTo(argv, 1) == "p";
      assert LineUpTo(argv, 2) == "p --s";
      assert LineUpTo(argv, 3) == "p --s --a";
    }
    assert CommandLineColumn(argv, 3) == 11;
    assert IsLongOptionToken("--s") && "--s"[2..] == "s";
    assert FindLong(registry, "s") == Some(0);
    assert IsLongOptionToken("--foo") && "--foo"[2..] == "foo";
    assert FindLong(registry, "foo") == None;
    var slots := InitialSlots(argv, 2);
    var e := ParseErrorInfo(line, UnrecognizedOption, 13, 3);
    var next := Step(Intended, argv, registry, 1, slots);
    assert next.Success? && next.value.next == 3;
    assert Walk(Intended, argv, registry, 3, next.value.slots) == Failure(e);
    assert ErrorSubstring(e) == Success("foo") by {
      Middle("p --s --a --", "foo", "");
      assert line == "p --s --a --" + "foo" + "";
    }
    ThrownAs(Intended, argv, registry, e, "foo");
    ParseProperties.IntendedParseErrorsExplained(argv, registry);
  }
}

=== FILE: help_layout.dfy ===
/** The help-text layout shared by both iterations of `Parameters::help_string`
    (parameters.cpp and cppargs.cpp): one line per parameter, a names column padded to the
    widest names, then " : " and the description. */
module HelpLayout {
  import opened Wrappers

  /** One parameter's names column and its description, as `help_string` pairs them. */
  datatype HelpEntry = HelpEntry(names: string, description: string)

  /** The names column: `--long`, then `, -s` for a short name, then ` [arg]` for a parameter
      that takes a value. */
  function NamesColumn(longName: string, shortName: Option<char>, takesArgument: bool): (r: string)
    ensures |r| == 2 + |longName| + (if shortName.Some? then 4 else 0) + (if takesArgument then 6 else 0)
    ensures r[..2] == "--" && r[2 .. 2 + |longName|] == longName
  {
    var short := if shortName.Some? then ", -" + [shortName.value] else "";
    var arg := if takesArgument then " [arg]" else "";
    "--" + longName + short + arg
  }

  /** `n` spaces. */
  function Spaces(n: nat): (r: string)
    ensures |r| == n && forall i :: 0 <= i < n ==> r[i] == ' '
  {
    if n == 0 then "" else Spaces(n - 1) + " "
  }

  /** `std::format`'s `{:{}}` on a string: left-aligned, right-padded with spaces to `width`
      bytes; a longer string is left as it is. */
  function PadRight(s: string, width: nat): (r: string)
    ensures |r| == if |s| < width then width else |s|
    ensures r[..|s|] == s
    ensures forall i :: |s| <= i < |r| ==> r[i] == ' '
  {
    if |s| < width then s + Spaces(width - |s|) else s
  }

  /** An empty description renders as "...". */
  function Description(description: string): string
  {
    if description == "" then "..." else description
  }

  /** One help line, `"\t{:{}} : {}\n"`. */
  function HelpLine(entry: HelpEntry, width: nat): string
  {
    "\t" + PadRight(entry.names, width) + " : " + Description(entry.description) + "\n"
  }

  /** The largest names-column length, 0 for no entries. */
  function MaxNamesLength(entries: seq<HelpEntry>): (m: nat)
    ensures forall i :: 0 <= i < |entries| ==> |entries[i].names| <= m
    ensures |entries| > 0 ==> exists i :: 0 <= i < |entries| && |entries[i].names| == m
    ensures |entries| == 0 ==> m == 0
  {
    if |entries| == 0 then 0
    else
      var m := MaxNamesLength(entries[..|entries| - 1]);
      var last := |entries[|entries| - 1].names|;
      assert forall i :: 0 <= i < |entries| - 1 ==> entries[i] == entries[..|entries| - 1][i];
      if m < last then last else m
  }

  /** Appending an entry raises the widest names column to that entry's, if it is wider. */
  lemma MaxNamesLengthSnoc(entries: seq<HelpEntry>, entry: HelpEntry)
    ensures var m := MaxNamesLength(entries);
            MaxNamesLength(entries + [entry]) == if m < |entry.names| then |entry.names| else m
  {
    assert (entries + [entry])[..|entries|] == entries;
  }

  /** The lines of `entries`, each padded to `width`, concatenated in order. */
  function RenderLines(entries: seq<HelpEntry>, width: nat): string
  {
    if |entries| == 0 then ""
    else RenderLines(entries[..|entries| - 1], width) + HelpLine(entries[|entries| - 1], width)
  }

  /** The whole help string: every line padded to the widest names column. */
  function Render(entries: seq<HelpEntry>): string
  {
    RenderLines(entries, MaxNamesLength(entries))
  }

  /** The second loop of `help_string`: append one formatted line per entry. */
  method FormatLines(entries: seq<HelpEntry>, maxLength: nat) returns (s: string)
    ensures s == RenderLines(entries, maxLength)
  {
    s := "";
    var i := 0;
    while i < |entries|
      invariant 0 <= i <= |entries|
      invariant s == RenderLines(entries[..i], maxLength)
    {
      assert entries[..i + 1][..i] == entries[..i];
      s := s + HelpLine(entries[i], maxLength);
      i := i + 1;
    }
    assert entries[..i] == entries;
  }

  /** One more entry of a prefix widens the column to that entry's names when they are wider. */
  lemma MaxNamesLengthPrefix(entries: seq<HelpEntry>, i: nat)
    requires i < |entries|
    ensures var m := MaxNamesLength(entries[..i]);
            var names := entries[i].names;
            MaxNamesLength(entries[..i + 1]) == if m < |names| then |names| else m
  {
    assert entries[..i + 1] == entries[..i] + [entries[i]];
    MaxNamesLengthSnoc(entries[..i], entries[i]);
  }

  /** The first loop of `help_string`: the widest names column seen so far. */
  method WidestNames(entries: seq<HelpEntry>) returns (maxLength: nat)
    ensures maxLength == MaxNamesLength(entries)
  {
    maxLength := 0;
    var i := 0;
    while i < |entries|
      invariant 0 <= i <= |entries|
      invariant maxLength == MaxNamesLength(entries[..i])
    {
      var entry := entries[i];
      MaxNamesLengthPrefix(entries, i);
      maxLength := if maxLength < |entry.names| then |entry.names| else maxLength;
      i := i + 1;
    }
    assert entries[..i] == entries;
  }

  /** `help_string` over a list of entries: the widest names column first, then one padded line
      per entry. */
  method HelpText(entries: seq<HelpEntry>) returns (s: string)
    ensures s == Render(entries)
  {
    var maxLength := WidestNames(entries);
    s := FormatLines(entries, maxLength);
  }

  /** Rendering distributes over concatenation of the entry list. */
  lemma {:induction false} RenderLinesAppend(a: seq<HelpEntry>, b: seq<HelpEntry>, width: nat)
    ensures RenderLines(a + b, width) == RenderLines(a, width) + RenderLines(b, width)
    decreases |b|
  {
    if |b| > 0 {
      var b' := b[..|b| - 1];
      assert (a + b)[..|a + b| - 1] == a + b';
      RenderLinesAppend(a, b', width);
    } else {
      assert a + b == a;
    }
  }

  /** Entry `i`'s line sits between the lines before it and the lines after it. */
  lemma RenderLinesSplit(entries: seq<HelpEntry>, i: nat, width: nat)
    requires i < |entries|
    ensures RenderLines(entries, width)
         == RenderLines(entries[..i], width) + HelpLine(entries[i], width) + RenderLines(entries[i + 1..], width)
  {
    var before, at, after := entries[..i], [entries[i]], entries[i + 1..];
    assert entries == before + at + after;
    RenderLinesAppend(before + at, after, width);
    RenderLinesAppend(before, at, width);
    assert at[..0] == [];
    assert RenderLines(at, width) == RenderLines([], width) + HelpLine(entries[i], width);
  }

  /** One line per entry, in order: the help string is the lines of the entries before `i`,
      then entry `i`'s line, then the lines of the entries after it. */
  lemma HelpLineAt(entries: seq<HelpEntry>, i: nat)
    requires i < |entries|
    ensures Render(entries)
         == RenderLines(entries[..i], MaxNamesLength(entries))
          + HelpLine(entries[i], MaxNamesLength(entries))
          + RenderLines(entries[i + 1..], MaxNamesLength(entries))
  {
    RenderLinesSplit(entries, i, MaxNamesLength(entries));
  }

  /** `line` is laid out as a help line: a tab, `names` padded with spaces to `width`, " : ",
      `description` and a newline, each at its fixed position. */
  predicate LaidOut(line: string, names: string, width: nat, description: string)
  {
    && |names| <= width
    && |line| == width + 5 + |description|
    && line[0] == '\t'
    && line[1 .. 1 + |names|] == names
    && (forall k :: 1 + |names| <= k < 1 + width ==> line[k] == ' ')
    && line[1 + width .. 4 + width] == " : "
    && line[4 + width .. |line| - 1] == description
    && line[|line| - 1] == '\n'
  }

  /** Entry `i`'s line inside the whole help string, and that line's layout. */
  lemma RenderedLine(entries: seq<HelpEntry>, i: nat)
    requires i < |entries|
    ensures var width := MaxNamesLength(entries);
            var line := HelpLine(entries[i], width);
            && Render(entries) == RenderLines(entries[..i], width) + line + RenderLines(entries[i + 1..], width)
            && LaidOut(line, entries[i].names, width, Description(entries[i].description))
  {
    HelpLineAt(entries, i);
    HelpLineAligned(entries[i], MaxNamesLength(entries));
  }

  /** The help string is empty exactly when there are no entries. */
  lemma {:induction false} RenderEmptyIffNoEntries(entries: seq<HelpEntry>, width: nat)
    ensures RenderLines(entries, width) == "" <==> |entries| == 0
  {
    if |entries| > 0 {
      var line := HelpLine(entries[|entries| - 1], width);
      assert line[0] == '\t';
      assert |RenderLines(entries, width)| >= |line|;
    }
  }

  /** Every line has the same shape at the same positions: a tab, the names, spaces up to the
      common width, " : " right after that width, the description (or "..."), a newline. */
  lemma HelpLineAligned(entry: HelpEntry, width: nat)
    requires |entry.names| <= width
    ensures LaidOut(HelpLine(entry, width), entry.names, width, Description(entry.description))
  {
    var padded := PadRight(entry.names, width);
    var line := HelpLine(entry, width);
    assert line == "\t" + padded + " : " + Description(entry.description) + "\n";
    assert line[1 .. 1 + width] == padded;
    assert line[1 .. 1 + |entry.names|] == padded[..|entry.names|];
    forall i | 1 + |entry.names| <= i < 1 + width
      ensures line[i] == ' '
    {
      assert line[i] == padded[i - 1];
    }
  }

  /** Number of newline bytes in a string. */
  function CountNewlines(s: string): nat
  {
    if |s| == 0 then 0 else CountNewlines(s[..|s| - 1]) + (if s[|s| - 1] == '\n' then 1 else 0)
  }

  lemma {:induction false} CountNewlinesAppend(a: string, b: string)
    ensures CountNewlines(a + b) == CountNewlines(a) + CountNewlines(b)
    decreases |b|
  {
    if |b| > 0 {
      assert (a + b)[..|a + b| - 1] == a + b[..|b| - 1];
      CountNewlinesAppend(a, b[..|b| - 1]);
    } else {
      assert a + b == a;
    }
  }

  /** A string without newline bytes. */
  predicate SingleLine(s: string)
  {
    forall i :: 0 <= i < |s| ==> s[i] != '\n'
  }

  /** When no names column and no description holds a newline, the help string has exactly
      one newline per entry: N entries give N lines. */
  lemma {:induction false} RenderLineCount(entries: seq<HelpEntry>, width: nat)
    requires forall i :: 0 <= i < |entries| ==> SingleLine(entries[i].names) && SingleLine(entries[i].description)
    ensures CountNewlines(RenderLines(entries, width)) == |entries|
    decreases |entries|
  {
    if |entries| > 0 {
      var init := entries[..|entries| - 1];
      assert forall i :: 0 <= i < |init| ==> init[i] == entries[i];
      RenderLineCount(init, width);
      var e := entries[|entries| - 1];
      HelpLineHasOneNewline(e, width);
      CountNewlinesAppend(RenderLines(init, width), HelpLine(e, width));
    }
  }

  /** A line built from single-line names and description holds exactly one newline. */
  lemma HelpLineHasOneNewline(e: HelpEntry, width: nat)
    requires SingleLine(e.names) && SingleLine(e.description)
    ensures CountNewlines(HelpLine(e, width)) == 1
  {
    var p := PadRight(e.names, width);
    forall i | 0 <= i < |p| ensures p[i] != '\n' {
      if i < |e.names| { assert p[i] == p[..|e.names|][i]; }
    }
    var body := "\t" + p + " : " + Description(e.description);
    assert HelpLine(e, width) == body + "\n";
    assert SingleLine(body);
    SingleLineHasNoNewlines(body);
    CountNewlinesAppend(body, "\n");
    assert CountNewlines("\n") == 1 by { assert "\n"[..0] == ""; }
  }

  lemma {:induction false} SingleLineHasNoNewlines(s: string)
    requires SingleLine(s)
    ensures CountNewlines(s) == 0
    decreases |s|
  {
    if |s| > 0 {
      SingleLineHasNoNewlines(s[..|s| - 1]);
    }
  }
}

=== FILE: legacy.dfy ===
/** The older iteration in cppargs.cpp: parameters carry an `is_flag` field instead of a
    nullable `validate`, `parse` is a stub, and `Arguments` holds plain string views. */
module Legacy {
  import opened Wrappers
  import HelpLayout
  import Parameters

  /** The header's `dtl::Parameter_info`. */
  datatype ParameterInfo = ParameterInfo(
    longName: string,
    shortName: Option<char>,
    description: string,
    isFlag: bool,
    index: nat)

  /** `Arguments` of this iteration: one string view per slot, never empty. */
  datatype Arguments = Arguments(slots: seq<string>)

  /** The help entry of one parameter: `[arg]` exactly when it is not a flag. */
  function Entry(info: ParameterInfo): HelpLayout.HelpEntry
  {
    HelpLayout.HelpEntry(HelpLayout.NamesColumn(info.longName, info.shortName, !info.isFlag), info.description)
  }

  function Entries(parameters: seq<ParameterInfo>): (r: seq<HelpLayout.HelpEntry>)
    ensures |r| == |parameters|
    ensures forall i :: 0 <= i < |r| ==> r[i] == Entry(parameters[i])
  {
    seq(|parameters|, i requires 0 <= i < |parameters| => Entry(parameters[i]))
  }

  /** `help_string` of this iteration: the same two passes, with `[arg]` for non-flags. */
  method HelpString(parameters: seq<ParameterInfo>) returns (s: string)
    ensures s == HelpLayout.Render(Entries(parameters))
  {
    s := HelpLayout.HelpText(Entries(parameters));
  }

  /** `size`. */
  function Size(parameters: seq<ParameterInfo>): nat
  {
    |parameters|
  }

  /** The stub `parse`: asserts `argc != 0` and a non-null `argv`, then returns `size() + 1`
      slots with `argv[0]` in front and every other slot empty. */
  function Parse(argc: int, argv: seq<string>, parameters: seq<ParameterInfo>): (r: Arguments)
    requires argc != 0 && |argv| > 0
    ensures |r.slots| == |parameters| + 1
    ensures r.slots[0] == argv[0]
    ensures forall k :: 1 <= k < |r.slots| ==> r.slots[k] == ""
  {
    Arguments([argv[0]] + seq(Size(parameters), k => ""))
  }

  /** `argv_0` of this iteration, which asserts a non-empty vector. */
  function ArgvZero(arguments: Arguments): string
    requires |arguments.slots| > 0
  {
    arguments.slots[0]
  }

  /** The stub parse hands `argv[0]` back through `argv_0` and no parameter value at all. */
  lemma StubParseReadBack(argc: int, argv: seq<string>, parameters: seq<ParameterInfo>)
    requires argc != 0 && |argv| > 0
    ensures ArgvZero(Parse(argc, argv, parameters)) == argv[0]
    ensures forall k :: 1 <= k <= Size(parameters) ==> Parse(argc, argv, parameters).slots[k] == ""
  {
  }

  /** The two iterations render the same help string for parameters that agree on names and
      descriptions and where `is_flag` holds exactly when `validate` is null. */
  lemma HelpAgreesAcrossIterations(parameters: seq<ParameterInfo>, registry: Parameters.Registry)
    requires |parameters| == |registry|
    requires forall i :: 0 <= i < |parameters| ==>
               && parameters[i].longName == registry[i].longName
               && parameters[i].shortName == registry[i].shortName
               && parameters[i].description == registry[i].description
               && (parameters[i].isFlag <==> registry[i].validate.None?)
    ensures HelpLayout.Render(Entries(parameters)) == HelpLayout.Render(Parameters.Entries(registry))
  {
    assert Entries(parameters) == Parameters.Entries(registry);
  }
}

=== FILE: occurrences.dfy ===
/** What a successful `cppargs::parse` leaves in each slot, defined without the walk: the tokens
    read as options are those reached by stepping over each option token and the value token it
    takes, and an entry's slot holds the value of the last of them that names the entry. */
module Occurrences {
  import opened Wrappers
  import opened CommandLine
  import opened Parameters
  import opened Parser

  /** `later` if it is present, `earlier` otherwise: a later store overwrites an earlier one. */
  function Override(later: Option<string>, earlier: Option<string>): (r: Option<string>)
    ensures r.Some? <==> later.Some? || earlier.Some?
    ensures later.Some? ==> r == later
    ensures later.None? ==> r == earlier
  {
    if later.Some? then later else earlier
  }

  /** `c` is the short name of a flag: the first entry holding it takes no value. */
  predicate IsFlagChar(registry: seq<ParameterInfo>, c: char)
  {
    match FindShort(registry, c)
    case None => false
    case Some(f) => registry[f].validate.None?
  }

  /** Every character of `token` from `from` up to `to` is the short name of a flag. */
  ghost predicate FlagsBetween(registry: seq<ParameterInfo>, token: string, from: nat, to: nat)
  {
    to <= |token| && forall p :: from <= p < to ==> IsFlagChar(registry, token[p])
  }

  /** The value a cluster stores for entry `j` from `offset` on, the later store winning: ""
      for a flag, the rest of the token or `following` for a value option, which also ends the
      cluster. Values are not checked here. */
  function ClusterValue(registry: seq<ParameterInfo>, token: string, offset: nat, j: nat, following: string)
    : Option<string>
    requires offset <= |token|
    decreases |token| - offset
  {
    if offset == |token| then None
    else
      match FindShort(registry, token[offset])
      case None => None
      case Some(f) =>
        if registry[f].validate.None? then
          Override(ClusterValue(registry, token, offset + 1, j, following), if f == j then Some("") else None)
        else if f != j then None
        else if offset + 1 < |token| then Some(token[offset + 1..])
        else Some(following)
  }

  /** The cluster from `offset` on ends with a value option's character, so it takes the next
      token as that option's value. */
  predicate ClusterTakesNext(registry: seq<ParameterInfo>, token: string, offset: nat)
    requires offset <= |token|
    decreases |token| - offset
  {
    && offset < |token|
    && match FindShort(registry, token[offset])
       case None => false
       case Some(f) =>
         if registry[f].validate.None? then ClusterTakesNext(registry, token, offset + 1)
         else offset + 1 == |token|
  }

  /** The token after `k`, or "" when `k` is last. */
  function Following(argv: Argv, k: nat): string
    requires IsValidCommandLine(argv) && k < |argv|
  {
    if k + 1 < |argv| then argv[k + 1].value else ""
  }

  /** The value option token `k` stores for entry `j`, when read as an option. */
  function TokenValue(argv: Argv, registry: seq<ParameterInfo>, k: nat, j: nat): Option<string>
    requires IsValidCommandLine(argv) && 1 <= k < |argv|
  {
    var token := argv[k].value;
    if IsLongOptionToken(token) then
      match FindLong(registry, token[2..])
      case None => None
      case Some(f) =>
        if f != j then None
        else if registry[f].validate.None? then Some("")
        else Some(Following(argv, k))
    else if IsClusterToken(token) then ClusterValue(registry, token, 1, j, Following(argv, k))
    else None
  }

  /** Option token `k` takes the next token as a value. */
  predicate TakesNext(argv: Argv, registry: seq<ParameterInfo>, k: nat)
    requires IsValidCommandLine(argv) && 1 <= k < |argv|
  {
    var token := argv[k].value;
    if IsLongOptionToken(token) then
      match FindLong(registry, token[2..])
      case None => false
      case Some(f) => registry[f].validate.Some?
    else IsClusterToken(token) && ClusterTakesNext(registry, token, 1)
  }

  /** The next token the walk reads as an option after token `k`. */
  function Successor(argv: Argv, registry: seq<ParameterInfo>, k: nat): (next: nat)
    requires IsValidCommandLine(argv) && 1 <= k < |argv|
    ensures k < next <= |argv|
  {
    if TakesNext(argv, registry, k) && k + 1 < |argv| then k + 2 else k + 1
  }

  /** Token `k` is read as an option by a walk started at token `i`. */
  ghost predicate Reached(argv: Argv, registry: seq<ParameterInfo>, i: nat, k: nat)
    requires IsValidCommandLine(argv) && 1 <= i
    ensures Reached(argv, registry, i, k) ==> i <= k < |argv|
    decreases |argv| - i
  {
    i < |argv| && (k == i || Reached(argv, registry, Successor(argv, registry, i), k))
  }

  /** Byte `off` of `token` starts a name the walk reads: the name of a long option, after
      `--`, or a cluster character preceded only by flags. */
  ghost predicate NameStart(registry: seq<ParameterInfo>, token: string, off: nat)
  {
    if IsLongOptionToken(token) then off == 2
    else IsClusterToken(token) && 1 <= off < |token| && FlagsBetween(registry, token, 1, off)
  }

  /** Entry `j` is named at byte `off` of token `k` as the walk reads it. */
  ghost predicate NamedAt(argv: Argv, registry: seq<ParameterInfo>, k: nat, off: nat, j: nat)
    requires IsValidCommandLine(argv) && 1 <= k < |argv|
  {
    var token := argv[k].value;
    && NameStart(registry, token, off)
    && if IsLongOptionToken(token) then FindLong(registry, token[2..]) == Some(j)
       else FindShort(registry, token[off]) == Some(j)
  }

  /** Some token read as an option by a walk started at token `i` names entry `j`. */
  ghost predicate NamedFrom(argv: Argv, registry: seq<ParameterInfo>, i: nat, j: nat)
    requires IsValidCommandLine(argv) && 1 <= i
  {
    exists k, off :: Reached(argv, registry, i, k) && NamedAt(argv, registry, k, off, j)
  }

  /** The value of entry `j` after a walk from token `i`: that of the last token the walk reads
      as an option that names `j`, or `None` when none does. */
  function LastValue(argv: Argv, registry: seq<ParameterInfo>, i: nat, j: nat): Option<string>
    requires IsValidCommandLine(argv) && 1 <= i <= |argv|
    decreases |argv| - i
  {
    if i == |argv| then None
    else Override(LastValue(argv, registry, Successor(argv, registry, i), j), TokenValue(argv, registry, i, j))
  }

  /** A cluster takes the next token as a value exactly when its characters from `from` on are
      flags up to a last one that names a value option. */
  lemma {:induction false} FlagsThenValueTakesNext(registry: seq<ParameterInfo>, token: string, from: nat)
    requires from < |token|
    ensures ClusterTakesNext(registry, token, from) <==>
              && FlagsBetween(registry, token, from, |token| - 1)
              && var found := FindShort(registry, token[|token| - 1]);
                 found.Some? && registry[found.value].validate.Some?
    decreases |token| - from
  {
    if from + 1 < |token| {
      FlagsThenValueTakesNext(registry, token, from + 1);
      assert FlagsBetween(registry, token, from, |token| - 1) <==>
               IsFlagChar(registry, token[from]) && FlagsBetween(registry, token, from + 1, |token| - 1);
    }
  }

  // ---------------------------------------------------------------------------------------
  // The walk computes these values

  /** A successful cluster from `offset` on stores `ClusterValue` for every entry and moves
      past the value token exactly when it takes one. */
  lemma {:induction false} ClusterStores(
    placement: Placement, argv: Argv, registry: Registry, i: nat, offset: nat, slots: Slots)
    requires IsValidCommandLine(argv) && 1 <= i < |argv| && IsClusterToken(argv[i].value)
    requires 1 <= offset <= |argv[i].value| && |slots| == |registry| + 1
    requires ShortCluster(placement, argv, registry, i, offset, slots).Success?
    ensures var r := ShortCluster(placement, argv, registry, i, offset, slots).value;
            var token := argv[i].value;
            && r.next == (if ClusterTakesNext(registry, token, offset) then i + 2 else i + 1)
            && forall j :: 0 <= j < |registry| ==>
                 r.slots[j + 1] == Override(ClusterValue(registry, token, offset, j, Following(argv, i)), slots[j + 1])
    decreases |argv[i].value| - offset
  {
    var token := argv[i].value;
    if offset < |token| {
      var f := FindShort(registry, token[offset]).value;
      if registry[f].validate.None? {
        ClusterStores(placement, argv, registry, i, offset + 1, slots[f + 1 := Some("")]);
      }
    }
  }

  /** A successful step stores `TokenValue` for every entry and moves to the successor. */
  lemma StepStores(placement: Placement, argv: Argv, registry: Registry, i: nat, slots: Slots)
    requires IsValidCommandLine(argv) && 1 <= i < |argv| && |slots| == |registry| + 1
    requires Step(placement, argv, registry, i, slots).Success?
    ensures var r := Step(placement, argv, registry, i, slots).value;
            && r.next == Successor(argv, registry, i)
            && forall j :: 0 <= j < |registry| ==> r.slots[j + 1] == Override(TokenValue(argv, registry, i, j), slots[j + 1])
  {
    if !IsLongOptionToken(argv[i].value) {
      ClusterStores(placement, argv, registry, i, 1, slots);
    }
  }

  /** A successful walk from token `i` leaves each entry's slot at its last value, or as it
      was when no token from `i` on names the entry. */
  lemma {:induction false} WalkStoresLastValues(placement: Placement, argv: Argv, registry: Registry, i: nat, slots: Slots)
    requires IsValidCommandLine(argv) && 1 <= i <= |argv| && |slots| == |registry| + 1
    requires Walk(placement, argv, registry, i, slots).Success?
    ensures forall j :: 0 <= j < |registry| ==>
              Walk(placement, argv, registry, i, slots).value[j + 1] == Override(LastValue(argv, registry, i, j), slots[j + 1])
    decreases |argv| - i
  {
    if i < |argv| {
      var progress := Step(placement, argv, registry, i, slots).value;
      StepStores(placement, argv, registry, i, slots);
      WalkStoresLastValues(placement, argv, registry, progress.next, progress.slots);
    }
  }

  // ---------------------------------------------------------------------------------------
  // Which tokens name an entry

  /** A cluster stores a value for `j` from `offset` on exactly when, after a run of flags,
      one of its characters is a short name found at entry `j`. */
  lemma {:induction false} ClusterValueNamed(registry: seq<ParameterInfo>, token: string, offset: nat, j: nat, following: string)
    requires offset <= |token|
    ensures ClusterValue(registry, token, offset, j, following).Some? <==>
              exists o :: offset <= o < |token| && FlagsBetween(registry, token, offset, o) && FindShort(registry, token[o]) == Some(j)
    decreases |token| - offset
  {
    if offset < |token| {
      ClusterValueNamed(registry, token, offset + 1, j, following);
      match FindShort(registry, token[offset])
      case None =>
        forall o | offset < o < |token| ensures !FlagsBetween(registry, token, offset, o) {
          assert !IsFlagChar(registry, token[offset]);
        }
      case Some(f) =>
        if registry[f].validate.None? {
          if ClusterValue(registry, token, offset + 1, j, following).Some? {
            var o :| offset + 1 <= o < |token| && FlagsBetween(registry, token, offset + 1, o) && FindShort(registry, token[o]) == Some(j);
            assert FlagsBetween(registry, token, offset, o);
          }
          forall o | offset < o < |token| && FlagsBetween(registry, token, offset, o)
            ensures FlagsBetween(registry, token, offset + 1, o)
          {
          }
        } else {
          forall o | offset < o < |token| ensures !FlagsBetween(registry, token, offset, o) {
            assert !IsFlagChar(registry, token[offset]);
          }
        }
    }
  }

  /** Token `k` stores a value for `j` exactly when it names `j` at some byte. */
  lemma TokenValueNamed(argv: Argv, registry: seq<ParameterInfo>, k: nat, j: nat)
    requires IsValidCommandLine(argv) && 1 <= k < |argv|
    ensures TokenValue(argv, registry, k, j).Some? <==> exists off :: NamedAt(argv, registry, k, off, j)
  {
    var token := argv[k].value;
    if IsLongOptionToken(token) {
      if FindLong(registry, token[2..]) == Some(j) {
        assert NamedAt(argv, registry, k, 2, j);
      }
    } else if IsClusterToken(token) {
      ClusterValueNamed(registry, token, 1, j, Following(argv, k));
      if TokenValue(argv, registry, k, j).Some? {
        var o :| 1 <= o < |token| && FlagsBetween(registry, token, 1, o) && FindShort(registry, token[o]) == Some(j);
        assert NamedAt(argv, registry, k, o, j);
      }
    }
  }

  /** The last value of `j` from `i` is present exactly when some token reached from `i`
      stores a value for `j`. */
  lemma {:induction false} LastValueFrom(argv: Argv, registry: seq<ParameterInfo>, i: nat, j: nat)
    requires IsValidCommandLine(argv) && 1 <= i <= |argv|
    ensures LastValue(argv, registry, i, j).Some? <==>
              exists k :: Reached(argv, registry, i, k) && TokenValue(argv, registry, k, j).Some?
    decreases |argv| - i
  {
    if i < |argv| {
      var next := Successor(argv, registry, i);
      LastValueFrom(argv, registry, next, j);
      if LastValue(argv, registry, i, j).Some? {
        if TokenValue(argv, registry, i, j).Some? {
          assert Reached(argv, registry, i, i);
        } else {
          var k :| Reached(argv, registry, next, k) && TokenValue(argv, registry, k, j).Some?;
          assert Reached(argv, registry, i, k);
        }
      }
      forall k | Reached(argv, registry, i, k) && TokenValue(argv, registry, k, j).Some?
        ensures LastValue(argv, registry, i, j).Some?
      {
        if k != i {
          assert Reached(argv, registry, next, k);
        }
      }
    }
  }

  /** The last value of `j` from `i` is present exactly when a token the walk reads as an
      option names `j`. */
  lemma LastValueNamed(argv: Argv, registry: seq<ParameterInfo>, i: nat, j: nat)
    requires IsValidCommandLine(argv) && 1 <= i <= |argv|
    ensures LastValue(argv, registry, i, j).Some? <==> NamedFrom(argv, registry, i, j)
  {
    LastValueFrom(argv, registry, i, j);
    forall k | Reached(argv, registry, i, k)
      ensures TokenValue(argv, registry, k, j).Some? <==> exists off :: NamedAt(argv, registry, k, off, j)
    {
      TokenValueNamed(argv, registry, k, j);
    }
  }

  /** When token `k`, reached from `i`, stores a value for `j` and no later reached token
      does, the last value of `j` is the one token `k` stores. */
  lemma {:induction false} LastOccurrenceWins(argv: Argv, registry: seq<ParameterInfo>, i: nat, k: nat, j: nat)
    requires IsValidCommandLine(argv) && 1 <= i <= |argv|
    requires Reached(argv, registry, i, k) && 1 <= k < |argv| && TokenValue(argv, registry, k, j).Some?
    requires forall m :: k < m < |argv| && Reached(argv, registry, i, m) ==> TokenValue(argv, registry, m, j).None?
    ensures LastValue(argv, registry, i, j) == TokenValue(argv, registry, k, j)
    decreases |argv| - i
  {
    var next := Successor(argv, registry, i);
    LastValueFrom(argv, registry, next, j);
    if k != i {
      forall m | k < m < |argv| && Reached(argv, registry, next, m)
        ensures TokenValue(argv, registry, m, j).None?
      {
        assert Reached(argv, registry, i, m);
      }
      LastOccurrenceWins(argv, registry, next, k, j);
    }
  }
}

=== FILE: parameters.dfy ===
/** `cppargs::Parameters` (parameters.cpp, cppargs.hpp): the append-only registry of
    parameters, the typed handles it returns, and its help string. */
module Parameters {
  import opened Wrappers
  import HelpLayout

  /** `dtl::Parameter_info` in the validate-based iteration. A null `validate` marks a flag;
      otherwise it is the parameter type's check on a raw argument, kept abstract here. */
  datatype ParameterInfo = ParameterInfo(
    validate: Option<string -> bool>,
    longName: string,
    shortName: Option<char>,
    description: string,
    index: nat)

  /** Entry `i` carries index `i + 1`; slot 0 of the parse result is reserved for `argv[0]`. */
  predicate WellIndexed(infos: seq<ParameterInfo>)
  {
    forall i :: 0 <= i < |infos| ==> infos[i].index == i + 1
  }

  /** The registry's private vector. Only `add_parameter` writes it, so indices always match
      positions. */
  type Registry = infos: seq<ParameterInfo> | WellIndexed(infos) witness []

  /** `Parameter<T>`: a handle holding only the index of its entry. */
  datatype Parameter = Parameter(index: nat)

  /** The template argument `T` of `add<T>`, as far as admissibility can tell types apart. */
  datatype ParameterType =
    | UnitType
    | StdString
    | StdStringView
    | Integral(name: string)
    | Floating(name: string)
    | Vector(element: ParameterType)
    | OtherType(name: string)

  /** `dtl::Is_parameter_type`: string, string_view, `Unit`, every integral type, and a vector
      of such a type; a vector of vectors matches the more specialised `false` case. */
  predicate IsParameterType(t: ParameterType)
  {
    match t
    case UnitType => true
    case StdString => true
    case StdStringView => true
    case Integral(_) => true
    case Floating(_) => false
    case OtherType(_) => false
    case Vector(e) => !e.Vector? && IsParameterType(e)
  }

  /** How many vectors wrap the innermost element type. */
  function VectorDepth(t: ParameterType): nat
  {
    if t.Vector? then 1 + VectorDepth(t.element) else 0
  }

  /** The element type under all vectors. */
  function Innermost(t: ParameterType): (r: ParameterType)
    ensures !r.Vector?
  {
    if t.Vector? then Innermost(t.element) else t
  }

  /** A type `Is_parameter_type` accepts without going through `std::vector`. */
  predicate IsScalarParameterType(t: ParameterType)
  {
    t.UnitType? || t.StdString? || t.StdStringView? || t.Integral?
  }

  /** Admissible types are exactly the admissible scalars wrapped in at most one vector. */
  lemma ParameterTypeShape(t: ParameterType)
    ensures IsParameterType(t) <==> VectorDepth(t) <= 1 && IsScalarParameterType(Innermost(t))
  {
    if t.Vector? && t.element.Vector? {
      assert VectorDepth(t) >= 2;
    }
  }

  /** `add_parameter`: append one entry whose index is the old size + 1 and return that index. */
  function AddParameter(
    registry: Registry, shortName: Option<char>, longName: string, description: string,
    validate: Option<string -> bool>): (r: (Registry, nat))
    ensures r.1 == |registry| + 1
    ensures |r.0| == |registry| + 1 && r.0[..|registry|] == registry
    ensures r.0[|registry|].index == r.1
    ensures r.0[|registry|].longName == longName && r.0[|registry|].shortName == shortName
    ensures r.0[|registry|].description == description && r.0[|registry|].validate == validate
  {
    var index := |registry| + 1;
    var entry := ParameterInfo(validate, longName, shortName, description, index);
    assert WellIndexed(registry + [entry]);
    (registry + [entry], index)
  }

  /** `add<T>(short_name, long_name, description)`: registers a flag when `T` is `Unit` (the
      default `T`) and otherwise an option checked by `validate`; returns a handle to it. */
  function Add(
    registry: Registry, t: ParameterType, validate: string -> bool,
    shortName: Option<char>, longName: string, description: string): (r: (Registry, Parameter))
    requires IsParameterType(t)
    ensures |r.0| == |registry| + 1 && r.0[..|registry|] == registry
    ensures r.1.index == |registry| + 1 && r.0[|registry|].index == r.1.index
    ensures r.0[|registry|].validate.None? <==> t == UnitType
    ensures r.0[|registry|].validate.Some? ==> r.0[|registry|].validate.value == validate
    ensures r.0[|registry|].longName == longName && r.0[|registry|].shortName == shortName
    ensures r.0[|registry|].description == description
  {
    var added := AddParameter(registry, shortName, longName, description,
                              if t.UnitType? then None else Some(validate));
    (added.0, Parameter(added.1))
  }

  /** `add<T>(long_name, description)`: the overload without a short name. */
  function AddLong(
    registry: Registry, t: ParameterType, validate: string -> bool,
    longName: string, description: string): (r: (Registry, Parameter))
    requires IsParameterType(t)
    ensures |r.0| == |registry| + 1 && r.0[..|registry|] == registry
    ensures r.1.index == |registry| + 1 && r.0[|registry|].index == r.1.index
    ensures r.0[|registry|].shortName.None?
    ensures r.0[|registry|].longName == longName && r.0[|registry|].description == description
    ensures r.0[|registry|].validate.None? <==> t == UnitType
  {
    Add(registry, t, validate, None, longName, description)
  }

  /** `info_span`: the entries, in registration order. */
  function InfoSpan(registry: Registry): (r: seq<ParameterInfo>)
    ensures |r| == |registry|
    ensures forall i :: 0 <= i < |r| ==> r[i].index == i + 1
  {
    registry
  }

  /** The help entry of one registered parameter: `[arg]` exactly when `validate` is non-null. */
  function Entry(info: ParameterInfo): HelpLayout.HelpEntry
  {
    HelpLayout.HelpEntry(
      HelpLayout.NamesColumn(info.longName, info.shortName, info.validate.Some?),
      info.description)
  }

  /** The entries of the whole registry, in order. */
  function Entries(registry: seq<ParameterInfo>): (r: seq<HelpLayout.HelpEntry>)
    ensures |r| == |registry|
    ensures forall i :: 0 <= i < |r| ==> r[i] == Entry(registry[i])
  {
    seq(|registry|, i requires 0 <= i < |registry| => Entry(registry[i]))
  }

  /** `help_string`: a first pass builds every names column and the widest length, a second
      pass formats one padded line per entry. */
  method HelpString(registry: Registry) returns (s: string)
    ensures s == HelpLayout.Render(Entries(registry))
  {
    s := HelpLayout.HelpText(Entries(registry));
  }

  /** The help string's shape for a whole registry: entry `i`'s line sits between the lines
      of the entries before and after it; it begins with a tab and the entry's names column
      (`--long`, `, -s`, and ` [arg]` exactly when `validate` is non-null), padded to the widest
      names column, and continues with " : ", the description or "...", and a newline. */
  lemma HelpStringShape(registry: Registry, i: nat)
    requires i < |registry|
    ensures var entries := Entries(registry);
            var width := HelpLayout.MaxNamesLength(entries);
            var entry := entries[i];
            var line := HelpLayout.HelpLine(entry, width);
            && entry.names
               == HelpLayout.NamesColumn(registry[i].longName, registry[i].shortName, registry[i].validate.Some?)
            && entry.description == registry[i].description
            && HelpLayout.Render(entries)
               == HelpLayout.RenderLines(entries[..i], width) + line
                + HelpLayout.RenderLines(entries[i + 1..], width)
            && HelpLayout.LaidOut(line, entry.names, width, HelpLayout.Description(entry.description))
  {
    HelpLayout.RenderedLine(Entries(registry), i);
  }
}

=== FILE: parse_properties.dfy ===
/** What a parse promises: every error's (column, width) picks out the offending text of the
    joined command line, every filled slot was named on the command line and holds a value its
    parameter accepts, and a non-option token only ever survives as an option's value. */
module ParseProperties {
  import opened Wrappers
  import opened CommandLine
  import opened ParseErrors
  import opened Parameters
  import opened ParsedArguments
  import opened Parser
  import opened Occurrences

  // ---------------------------------------------------------------------------------------
  // Error locations

  /** The bytes `[off, off + width)` of `token` are one option name as the walk reads it: all
      of a long option after `--`, or one character of a cluster that only flags precede. */
  ghost predicate NameAt(registry: seq<ParameterInfo>, token: string, off: nat, width: nat)
  {
    NameStart(registry, token, off) && off + width == (if IsLongOptionToken(token) then |token| else off + 1)
  }

  /** The entry the walk finds for the name at `off` of an option token. */
  function Lookup(registry: seq<ParameterInfo>, token: string, off: nat): (found: Option<nat>)
    ensures found.Some? ==> found.value < |registry|
    ensures IsLongOptionToken(token) ==> found == FindLong(registry, token[2..])
  {
    if IsLongOptionToken(token) then FindLong(registry, token[2..])
    else if off < |token| then FindShort(registry, token[off])
    else None
  }

  /** Where the last name of an option token starts: after `--`, or at a cluster's last
      character. A value taken from the next token belongs to this name. */
  function LastNameStart(token: string): (start: nat)
    ensures start <= |token|
    ensures IsClusterToken(token) && !IsLongOptionToken(token) ==> start + 1 == |token|
  {
    if IsLongOptionToken(token) then 2 else if |token| > 0 then |token| - 1 else 0
  }

  /** `found` is an entry that takes a value. */
  ghost predicate TakesValue(registry: seq<ParameterInfo>, found: Option<nat>)
  {
    found.Some? && found.value < |registry| && registry[found.value].validate.Some?
  }

  /** `found` is an entry that takes a value and whose `validate` rejects `value`. */
  ghost predicate RejectedBy(registry: seq<ParameterInfo>, found: Option<nat>, value: string)
  {
    TakesValue(registry, found) && !registry[found.value].validate.value(value)
  }

  /** What the bytes `[off, off + width)` of token `k` must be for an error of `kind`:
      - `unrecognized_option`: a name the walk reads that no entry has;
      - `missing_argument`: the name of a value option, ending the last token;
      - `invalid_argument`: either the rest of a cluster after a value option's character, or
        the whole token after an option token whose last name takes a value, rejected in both
        cases by that option;
      - `positional_argument`: a whole token that is not an option. */
  ghost predicate KindAt(argv: Argv, registry: seq<ParameterInfo>, kind: Kind, k: nat, off: nat, width: nat)
    requires IsValidCommandLine(argv) && 1 <= k < |argv|
  {
    var token := argv[k].value;
    match kind
    case UnrecognizedOption => NameAt(registry, token, off, width) && Lookup(registry, token, off).None?
    case MissingArgument =>
      && NameAt(registry, token, off, width) && off + width == |token| && k + 1 == |argv|
      && TakesValue(registry, Lookup(registry, token, off))
    case InvalidArgument => InlineValueAt(argv, registry, k, off, width) || NextValueAt(argv, registry, k, off, width)
    case PositionalArgument => off == 0 && width == |token| && !IsOptionToken(token)
  }

  /** The bytes from `off` to the end of cluster token `k` are the inline value of the value
      option named just before them, which rejects it. */
  ghost predicate InlineValueAt(argv: Argv, registry: seq<ParameterInfo>, k: nat, off: nat, width: nat)
    requires IsValidCommandLine(argv) && 1 <= k < |argv|
  {
    var token := argv[k].value;
    && !IsLongOptionToken(token) && 2 <= off < |token| && off + width == |token| && NameAt(registry, token, off - 1, 1)
    && RejectedBy(registry, Lookup(registry, token, off - 1), token[off..])
  }

  /** The range is the whole of token `k`, and the last name of token `k - 1` takes a value and
      rejects it. Whether a walk reads token `k - 1` is not part of this: `ExplainsAtSite` asks
      for that. */
  ghost predicate NextValueAt(argv: Argv, registry: seq<ParameterInfo>, k: nat, off: nat, width: nat)
    requires IsValidCommandLine(argv) && 1 <= k < |argv|
  {
    && 2 <= k && off == 0 && width == |argv[k].value|
    && var option := argv[k - 1].value;
       var start := LastNameStart(option);
       NameAt(registry, option, start, |option| - start) && RejectedBy(registry, Lookup(registry, option, start), argv[k].value)
  }

  /** The error's range is the bytes `[off, off + width)` of token `k`: it starts at that
      token's column plus `off`, the line holds exactly those bytes there, and they are what
      `KindAt` demands. */
  ghost predicate ExplainsAt(argv: Argv, registry: seq<ParameterInfo>, e: ParseErrorInfo, k: nat, off: nat)
    requires IsValidCommandLine(argv)
  {
    && 1 <= k < |argv|
    && off + e.errorWidth <= |argv[k].value|
    && e.errorColumn == CommandLineColumn(argv, k) + off
    && e.errorColumn - 1 + e.errorWidth <= |e.commandLine|
    && e.commandLine[e.errorColumn - 1 .. e.errorColumn - 1 + e.errorWidth] == argv[k].value[off .. off + e.errorWidth]
    && KindAt(argv, registry, e.kind, k, off, e.errorWidth)
  }

  /** The error quotes the joined command line, and its column and width pick out, inside one
      token, the offending text its kind names. */
  ghost predicate Explains(argv: Argv, registry: seq<ParameterInfo>, e: ParseErrorInfo)
    requires IsValidCommandLine(argv)
  {
    e.commandLine == MakeCommandLineString(argv) && exists k: nat, off: nat :: ExplainsAt(argv, registry, e, k, off)
  }

  /** The error's range lies in token `s` itself; an `invalid_argument` there is an inline
      value, since a value taken from the next token is blamed on the token that takes it. */
  ghost predicate ExplainsOnToken(argv: Argv, registry: seq<ParameterInfo>, e: ParseErrorInfo, s: nat, off: nat)
    requires IsValidCommandLine(argv)
  {
    && ExplainsAt(argv, registry, e, s, off)
    && (e.kind == InvalidArgument ==> InlineValueAt(argv, registry, s, off, e.errorWidth))
  }

  /** The error is the whole token after `s`, which token `s` takes as its value and rejects. */
  ghost predicate ExplainsAsValueOf(argv: Argv, registry: seq<ParameterInfo>, e: ParseErrorInfo, s: nat)
    requires IsValidCommandLine(argv) && 1 <= s < |argv|
  {
    && e.kind == InvalidArgument && s + 1 < |argv| && TakesNext(argv, registry, s)
    && ExplainsAt(argv, registry, e, s + 1, 0)
  }

  /** The error picks out bytes of token `s` or, for a rejected value that token `s` takes from
      the next token, that whole next token. */
  ghost predicate ExplainsAtSite(argv: Argv, registry: seq<ParameterInfo>, e: ParseErrorInfo, s: nat)
    requires IsValidCommandLine(argv) && 1 <= s < |argv|
  {
    && e.commandLine == MakeCommandLineString(argv)
    && ((exists off: nat :: ExplainsOnToken(argv, registry, e, s, off)) || ExplainsAsValueOf(argv, registry, e, s))
  }

  /** The error is explained at the first token a walk from token 1 reads as an option that
      has a defect. */
  ghost predicate ExplainedAtFirstDefect(argv: Argv, registry: seq<ParameterInfo>, e: ParseErrorInfo)
    requires IsValidCommandLine(argv)
  {
    exists s :: FirstDefect(argv, registry, 1, s) && ExplainsAtSite(argv, registry, e, s)
  }

  /** `e` is explained at the first defect, and no other record is. */
  ghost predicate SoleRecordAtFirstDefect(argv: Argv, registry: seq<ParameterInfo>, e: ParseErrorInfo)
    requires IsValidCommandLine(argv)
  {
    && ExplainedAtFirstDefect(argv, registry, e)
    && forall e' :: ExplainedAtFirstDefect(argv, registry, e') ==> e' == e
  }

  lemma SiteExplains(argv: Argv, registry: seq<ParameterInfo>, e: ParseErrorInfo, s: nat)
    requires IsValidCommandLine(argv) && 1 <= s < |argv| && ExplainsAtSite(argv, registry, e, s)
    ensures Explains(argv, registry, e)
  {
    if exists off: nat :: ExplainsOnToken(argv, registry, e, s, off) {
      var off: nat :| ExplainsOnToken(argv, registry, e, s, off);
      assert ExplainsAt(argv, registry, e, s, off);
    } else {
      assert ExplainsAt(argv, registry, e, s + 1, 0);
    }
  }

  // ---------------------------------------------------------------------------------------
  // Defects: what stops the walk, defined without it

  /** The name at byte `off` of token `m` stops the walk: no entry has it, or its entry takes a
      value that is missing or that its `validate` rejects. */
  ghost predicate NameDefect(argv: Argv, registry: seq<ParameterInfo>, m: nat, off: nat)
    requires IsValidCommandLine(argv) && 1 <= m < |argv|
  {
    var token := argv[m].value;
    var found := Lookup(registry, token, off);
    || found.None?
    || if !IsLongOptionToken(token) && off + 1 < |token| then RejectedBy(registry, found, token[off + 1..])
       else TakesValue(registry, found) && (m + 1 == |argv| || RejectedBy(registry, found, argv[m + 1].value))
  }

  /** Token `m`, read as an option, stops the walk: it is not an option token, or a name the
      walk reads in it has a defect. */
  ghost predicate DefectAt(argv: Argv, registry: seq<ParameterInfo>, m: nat)
    requires IsValidCommandLine(argv) && 1 <= m < |argv|
  {
    var token := argv[m].value;
    !IsOptionToken(token) || exists off :: NameStart(registry, token, off) && NameDefect(argv, registry, m, off)
  }

  /** Token `s` is the first token a walk from `i` reads as an option that has a defect. */
  ghost predicate FirstDefect(argv: Argv, registry: seq<ParameterInfo>, i: nat, s: nat)
    requires IsValidCommandLine(argv) && 1 <= i
  {
    && Reached(argv, registry, i, s) && DefectAt(argv, registry, s)
    && forall m: nat :: Reached(argv, registry, i, m) && m < s ==> !DefectAt(argv, registry, m)
  }

  /** A cluster fails from `offset` on exactly when, after a run of flags, one of its names has
      a defect. */
  lemma {:induction false} ClusterFailsOnDefect(
    placement: Placement, argv: Argv, registry: Registry, i: nat, offset: nat, slots: Slots)
    requires IsValidCommandLine(argv) && 1 <= i < |argv|
    requires IsClusterToken(argv[i].value) && !IsLongOptionToken(argv[i].value) && 1 <= offset <= |argv[i].value|
    requires |slots| == |registry| + 1
    ensures ShortCluster(placement, argv, registry, i, offset, slots).Failure? <==>
              exists off :: && offset <= off < |argv[i].value| && FlagsBetween(registry, argv[i].value, offset, off)
                            && NameDefect(argv, registry, i, off)
    decreases |argv[i].value| - offset
  {
    var token := argv[i].value;
    if offset < |token| {
      match FindShort(registry, token[offset])
      case None =>
        assert NameDefect(argv, registry, i, offset);
      case Some(j) =>
        if registry[j].validate.None? {
          ClusterFailsOnDefect(placement, argv, registry, i, offset + 1, slots[registry[j].index := Some("")]);
          assert !NameDefect(argv, registry, i, offset);
          forall off | offset < off < |token|
            ensures FlagsBetween(registry, token, offset, off) <==> FlagsBetween(registry, token, offset + 1, off)
          {
            assert IsFlagChar(registry, token[offset]);
          }
        } else {
          forall off | offset < off < |token| ensures !FlagsBetween(registry, token, offset, off) {
            assert !IsFlagChar(registry, token[offset]);
          }
          if ShortCluster(placement, argv, registry, i, offset, slots).Failure? {
            assert NameDefect(argv, registry, i, offset);
          }
        }
    }
  }

  /** A step fails exactly when its token has a defect. */
  lemma StepFailsOnDefect(placement: Placement, argv: Argv, registry: Registry, i: nat, slots: Slots)
    requires IsValidCommandLine(argv) && 1 <= i < |argv| && |slots| == |registry| + 1
    ensures Step(placement, argv, registry, i, slots).Failure? <==> DefectAt(argv, registry, i)
  {
    var token := argv[i].value;
    if IsLongOptionToken(token) {
      assert NameStart(registry, token, 2);
    } else if IsClusterToken(token) {
      ClusterFailsOnDefect(placement, argv, registry, i, 1, slots);
    }
  }

  // ---------------------------------------------------------------------------------------
  // One site, one record

  /** Two names a cluster walk reads that are not flags are one name: a name read before
      another is a flag. */
  lemma NonFlagNamesMeet(registry: seq<ParameterInfo>, token: string, p: nat, q: nat)
    requires !IsLongOptionToken(token) && NameStart(registry, token, p) && NameStart(registry, token, q)
    requires !IsFlagChar(registry, token[p]) && !IsFlagChar(registry, token[q])
    ensures p == q
  {
  }

  /** The name an error explained on token `s` at `off` is about: `off` itself, or the byte
      before an inline value. */
  function BlamedName(kind: Kind, off: nat): nat
  {
    if kind == InvalidArgument && off > 0 then off - 1 else off
  }

  /** Two records explained on the same token have the same kind, offset and width. */
  lemma OnTokenUnique(argv: Argv, registry: seq<ParameterInfo>, e1: ParseErrorInfo, o1: nat, e2: ParseErrorInfo, o2: nat, s: nat)
    requires IsValidCommandLine(argv) && 1 <= s < |argv|
    requires ExplainsOnToken(argv, registry, e1, s, o1) && ExplainsOnToken(argv, registry, e2, s, o2)
    ensures e1.kind == e2.kind && o1 == o2 && e1.errorWidth == e2.errorWidth
  {
    var token := argv[s].value;
    if IsClusterToken(token) && !IsLongOptionToken(token) {
      NonFlagNamesMeet(registry, token, BlamedName(e1.kind, o1), BlamedName(e2.kind, o2));
    }
  }

  /** A token with a record explained on it takes no next token as a value: a token that takes
      one has every name the walk reads sound, unless it is the last token and its value is
      missing. */
  lemma OnTokenTakesNoValue(argv: Argv, registry: seq<ParameterInfo>, e: ParseErrorInfo, off: nat, s: nat)
    requires IsValidCommandLine(argv) && 1 <= s < |argv|
    requires ExplainsOnToken(argv, registry, e, s, off)
    ensures TakesNext(argv, registry, s) ==> s + 1 == |argv| && e.kind == MissingArgument
  {
    var token := argv[s].value;
    if TakesNext(argv, registry, s) && IsClusterToken(token) && !IsLongOptionToken(token) {
      FlagsThenValueTakesNext(registry, token, 1);
      NonFlagNamesMeet(registry, token, BlamedName(e.kind, off), |token| - 1);
    }
  }

  /** At most one record is explained at a site: the token, the registry and the line fix its
      kind, column and width. */
  lemma SiteDeterminesError(argv: Argv, registry: seq<ParameterInfo>, e1: ParseErrorInfo, e2: ParseErrorInfo, s: nat)
    requires IsValidCommandLine(argv) && 1 <= s < |argv|
    requires ExplainsAtSite(argv, registry, e1, s) && ExplainsAtSite(argv, registry, e2, s)
    ensures e1 == e2
  {
    if o1: nat :| ExplainsOnToken(argv, registry, e1, s, o1) {
      if o2: nat :| ExplainsOnToken(argv, registry, e2, s, o2) {
        OnTokenUnique(argv, registry, e1, o1, e2, o2, s);
      } else {
        OnTokenTakesNoValue(argv, registry, e1, o1, s);
        assert false;
      }
    } else if o2: nat :| ExplainsOnToken(argv, registry, e2, s, o2) {
      OnTokenTakesNoValue(argv, registry, e2, o2, s);
      assert false;
    }
  }

  /** A walk has at most one first defect. */
  lemma FirstDefectUnique(argv: Argv, registry: seq<ParameterInfo>, i: nat, s1: nat, s2: nat)
    requires IsValidCommandLine(argv) && 1 <= i
    requires FirstDefect(argv, registry, i, s1) && FirstDefect(argv, registry, i, s2)
    ensures s1 == s2
  {
  }

  /** At most one record is explained at the first defect. */
  lemma ExplainedAtFirstDefectUnique(argv: Argv, registry: seq<ParameterInfo>, e1: ParseErrorInfo, e2: ParseErrorInfo)
    requires IsValidCommandLine(argv)
    requires ExplainedAtFirstDefect(argv, registry, e1) && ExplainedAtFirstDefect(argv, registry, e2)
    ensures e1 == e2
  {
    var s1 :| FirstDefect(argv, registry, 1, s1) && ExplainsAtSite(argv, registry, e1, s1);
    var s2 :| FirstDefect(argv, registry, 1, s2) && ExplainsAtSite(argv, registry, e2, s2);
    FirstDefectUnique(argv, registry, 1, s1, s2);
    SiteDeterminesError(argv, registry, e1, e2, s1);
  }

  // ---------------------------------------------------------------------------------------
  // Each failure is explained at its site

  /** An error at token `k` plus `off` is explained there once its bytes are what its kind
      demands. */
  lemma LocatedExplained(argv: Argv, registry: seq<ParameterInfo>, kind: Kind, k: nat, off: nat, width: nat)
    requires IsValidCommandLine(argv) && argv[0].Some? && 1 <= k < |argv|
    requires off + width <= |argv[k].value|
    requires KindAt(argv, registry, kind, k, off, width)
    ensures ExplainsAt(argv, registry, LocatedError(argv, kind, k, off, width), k, off)
    ensures kind != InvalidArgument || InlineValueAt(argv, registry, k, off, width) ==>
              ExplainsAtSite(argv, registry, LocatedError(argv, kind, k, off, width), k)
  {
    var e := LocatedError(argv, kind, k, off, width);
    LocatedRange(argv, registry, kind, k, off, width);
    if kind != InvalidArgument || InlineValueAt(argv, registry, k, off, width) {
      assert ExplainsOnToken(argv, registry, e, k, off);
    }
  }

  /** The range of an error located at token `k` plus `off` is those bytes of the token. */
  lemma LocatedRange(argv: Argv, registry: seq<ParameterInfo>, kind: Kind, k: nat, off: nat, width: nat)
    requires IsValidCommandLine(argv) && argv[0].Some? && 1 <= k < |argv|
    requires off + width <= |argv[k].value|
    requires KindAt(argv, registry, kind, k, off, width)
    ensures ExplainsAt(argv, registry, LocatedError(argv, kind, k, off, width), k, off)
  {
    var e := LocatedError(argv, kind, k, off, width);
    TokenSlice(argv, k, off, off + width);
    assert e.errorColumn == CommandLineColumn(argv, k) + off && e.errorWidth == width;
  }

  /** A value token that the option before it rejects is reported whole, at its own column, and
      that option token takes it as its value. */
  lemma NextValueErrorExplained(argv: Argv, registry: Registry, k: nat)
    requires IsValidCommandLine(argv) && argv[0].Some? && 2 <= k < |argv|
    requires var option := argv[k - 1].value;
             var start := LastNameStart(option);
             NameAt(registry, option, start, |option| - start) && RejectedBy(registry, Lookup(registry, option, start), argv[k].value)
    ensures TakesNext(argv, registry, k - 1)
    ensures ExplainsAtSite(argv, registry, LocatedError(argv, InvalidArgument, k, 0, |argv[k].value|), k - 1)
  {
    var option := argv[k - 1].value;
    if !IsLongOptionToken(option) {
      FlagsThenValueTakesNext(registry, option, 1);
    }
    LocatedExplained(argv, registry, InvalidArgument, k, 0, |argv[k].value|);
  }

  /** The character at `offset` of a cluster, after flags only, is reported alone: either no
      entry has it as short name, or it names a value option and ends the last token. */
  lemma ShortNameErrorExplained(argv: Argv, registry: Registry, kind: Kind, i: nat, offset: nat)
    requires IsValidCommandLine(argv) && argv[0].Some? && 1 <= i < |argv|
    requires IsClusterToken(argv[i].value) && !IsLongOptionToken(argv[i].value) && 1 <= offset < |argv[i].value|
    requires FlagsBetween(registry, argv[i].value, 1, offset)
    requires kind == UnrecognizedOption ==> FindShort(registry, argv[i].value[offset]).None?
    requires kind == MissingArgument ==>
               && offset + 1 == |argv[i].value| && i + 1 == |argv|
               && TakesValue(registry, FindShort(registry, argv[i].value[offset]))
    requires kind == UnrecognizedOption || kind == MissingArgument
    ensures ExplainsAtSite(argv, registry, LocatedError(argv, kind, i, offset, 1), i)
  {
    LocatedExplained(argv, registry, kind, i, offset, 1);
  }

  /** With the intended placement, a rejected inline value is reported from its first byte. */
  lemma InlineValueErrorExplained(argv: Argv, registry: Registry, i: nat, offset: nat)
    requires IsValidCommandLine(argv) && argv[0].Some? && 1 <= i < |argv|
    requires IsClusterToken(argv[i].value) && !IsLongOptionToken(argv[i].value)
    requires 1 <= offset && offset + 1 < |argv[i].value| && FlagsBetween(registry, argv[i].value, 1, offset)
    requires RejectedBy(registry, FindShort(registry, argv[i].value[offset]), argv[i].value[offset + 1..])
    ensures ExplainsAtSite(argv, registry,
              LocatedError(argv, InvalidArgument, i, offset + 1, |argv[i].value[offset + 1..]|), i)
  {
    LocatedExplained(argv, registry, InvalidArgument, i, offset + 1, |argv[i].value[offset + 1..]|);
  }

  lemma LongOptionErrorExplained(argv: Argv, registry: Registry, i: nat, slots: Slots)
    requires IsValidCommandLine(argv) && argv[0].Some? && 1 <= i < |argv|
    requires IsLongOptionToken(argv[i].value) && |slots| == |registry| + 1
    requires LongOption(argv, registry, i, slots).Failure?
    ensures ExplainsAtSite(argv, registry, LongOption(argv, registry, i, slots).error, i)
  {
    var token := argv[i].value;
    var name := token[2..];
    match FindLong(registry, name)
    case None =>
      LocatedExplained(argv, registry, UnrecognizedOption, i, 2, |name|);
    case Some(j) =>
      if i + 1 == |argv| {
        LocatedExplained(argv, registry, MissingArgument, i, 2, |name|);
      } else {
        NextValueErrorExplained(argv, registry, i + 1);
      }
  }

  /** In the intended placement every cluster error is explained at the cluster; as written,
      every one except `invalid_argument`. */
  lemma {:induction false} ShortClusterErrorExplained(
    placement: Placement, argv: Argv, registry: Registry, i: nat, offset: nat, slots: Slots)
    requires IsValidCommandLine(argv) && argv[0].Some? && 1 <= i < |argv|
    requires IsClusterToken(argv[i].value) && !IsLongOptionToken(argv[i].value) && 1 <= offset <= |argv[i].value|
    requires FlagsBetween(registry, argv[i].value, 1, offset)
    requires |slots| == |registry| + 1
    requires ShortCluster(placement, argv, registry, i, offset, slots).Failure?
    ensures var e := ShortCluster(placement, argv, registry, i, offset, slots).error;
            placement == Intended || e.kind != InvalidArgument ==> ExplainsAtSite(argv, registry, e, i)
    decreases |argv[i].value| - offset
  {
    var token := argv[i].value;
    match FindShort(registry, token[offset])
    case None =>
      ShortNameErrorExplained(argv, registry, UnrecognizedOption, i, offset);
    case Some(j) =>
      var info := registry[j];
      if info.validate.None? {
        assert IsFlagChar(registry, token[offset]);
        ShortClusterErrorExplained(placement, argv, registry, i, offset + 1, slots[info.index := Some("")]);
      } else if offset + 1 < |token| {
        if placement == Intended {
          InlineValueErrorExplained(argv, registry, i, offset);
        }
      } else if i + 1 == |argv| {
        ShortNameErrorExplained(argv, registry, MissingArgument, i, offset);
      } else if placement == Intended {
        NextValueErrorExplained(argv, registry, i + 1);
      }
  }

  lemma StepErrorExplained(placement: Placement, argv: Argv, registry: Registry, i: nat, slots: Slots)
    requires IsValidCommandLine(argv) && argv[0].Some? && 1 <= i < |argv| && |slots| == |registry| + 1
    requires Step(placement, argv, registry, i, slots).Failure?
    ensures var e := Step(placement, argv, registry, i, slots).error;
            placement == Intended || e.kind != InvalidArgument ==> ExplainsAtSite(argv, registry, e, i)
  {
    var token := argv[i].value;
    if IsLongOptionToken(token) {
      LongOptionErrorExplained(argv, registry, i, slots);
    } else if IsClusterToken(token) {
      ShortClusterErrorExplained(placement, argv, registry, i, 1, slots);
    } else {
      LocatedExplained(argv, registry, PositionalArgument, i, 0, |token|);
    }
  }

  /** A failed walk from token `i` stopped at the first token it reads as an option that has a
      defect, and, with a non-null `argv[0]`, its error is explained at that token (as written,
      unless it is `invalid_argument`). */
  lemma {:induction false} WalkErrorExplained(placement: Placement, argv: Argv, registry: Registry, i: nat, slots: Slots)
    requires IsValidCommandLine(argv) && 1 <= i <= |argv| && |slots| == |registry| + 1
    requires Walk(placement, argv, registry, i, slots).Failure?
    ensures var e := Walk(placement, argv, registry, i, slots).error;
            exists s :: && FirstDefect(argv, registry, i, s)
                        && (argv[0].Some? && (placement == Intended || e.kind != InvalidArgument) ==>
                              ExplainsAtSite(argv, registry, e, s))
    decreases |argv| - i
  {
    var e := Walk(placement, argv, registry, i, slots).error;
    StepFailsOnDefect(placement, argv, registry, i, slots);
    match Step(placement, argv, registry, i, slots)
    case Failure(_) =>
      if argv[0].Some? {
        StepErrorExplained(placement, argv, registry, i, slots);
      }
      assert FirstDefect(argv, registry, i, i);
    case Success(progress) =>
      StepStores(placement, argv, registry, i, slots);
      WalkErrorExplained(placement, argv, registry, progress.next, progress.slots);
      var s :| && FirstDefect(argv, registry, progress.next, s)
               && (argv[0].Some? && (placement == Intended || e.kind != InvalidArgument) ==>
                     ExplainsAtSite(argv, registry, e, s));
      forall m | Reached(argv, registry, i, m) && m < s ensures !DefectAt(argv, registry, m) {
        if m != i {
          assert Reached(argv, registry, progress.next, m);
        }
      }
      assert FirstDefect(argv, registry, i, s);
  }

  /** An explained error always has a message: its range starts inside the line, so
      `error_substring` returns exactly the explained bytes and `what()` quotes them. */
  lemma ExplainedErrorHasMessage(argv: Argv, registry: seq<ParameterInfo>, e: ParseErrorInfo)
    requires IsValidCommandLine(argv) && Explains(argv, registry, e)
    ensures MakeException(e).Success?
    ensures ErrorSubstring(e) == Success(e.commandLine[e.errorColumn - 1 .. e.errorColumn - 1 + e.errorWidth])
    ensures QuotesItsRange(MakeException(e).value)
  {
    ExplainedInRange(argv, registry, e);
    InRangeQuotes(e);
  }

  /** An explained error's range lies inside the line. */
  lemma ExplainedInRange(argv: Argv, registry: seq<ParameterInfo>, e: ParseErrorInfo)
    requires IsValidCommandLine(argv) && Explains(argv, registry, e)
    ensures 1 <= e.errorColumn && e.errorColumn - 1 + e.errorWidth <= |e.commandLine|
  {
    var k: nat, off: nat :| ExplainsAt(argv, registry, e, k, off);
  }

  /** As written (parse.cpp:109), a rejected inline value is reported from the option
      character with the value's width. That range ends one byte short of its token, and no
      other token contains it, so nothing in the line explains it. */
  lemma InlineValueAsWrittenUnexplained(argv: Argv, registry: seq<ParameterInfo>, i: nat, offset: nat)
    requires IsValidCommandLine(argv) && argv[0].Some? && 1 <= i < |argv|
    requires IsClusterToken(argv[i].value) && !IsLongOptionToken(argv[i].value)
    requires 1 <= offset && offset + 1 < |argv[i].value|
    ensures !Explains(argv, registry, LocatedError(argv, InvalidArgument, i, offset, |argv[i].value[offset + 1..]|))
  {
    var e := LocatedError(argv, InvalidArgument, i, offset, |argv[i].value[offset + 1..]|);
    forall k: nat, off: nat | ExplainsAt(argv, registry, e, k, off)
      ensures false
    {
      if k < i {
        ColumnsIncrease(argv, k, i);
      } else if k > i {
        ColumnsIncrease(argv, i, k);
      }
    }
  }

  /** As written (parse.cpp:119), a rejected value from the next token is reported shifted
      right by the cluster offset, with the value's full width. When the value is at least as
      long as that offset, the range runs past the value token and starts before any later
      one, so nothing in the line explains it. */
  lemma NextValueAsWrittenUnexplained(argv: Argv, registry: seq<ParameterInfo>, i: nat, offset: nat)
    requires IsValidCommandLine(argv) && argv[0].Some? && 1 <= i && i + 1 < |argv|
    requires 1 <= offset <= |argv[i + 1].value|
    ensures !Explains(argv, registry, LocatedError(argv, InvalidArgument, i + 1, offset, |argv[i + 1].value|))
  {
    var e := LocatedError(argv, InvalidArgument, i + 1, offset, |argv[i + 1].value|);
    forall k: nat, off: nat | ExplainsAt(argv, registry, e, k, off)
      ensures false
    {
      if k < i + 1 {
        ColumnsIncrease(argv, k, i + 1);
      } else if k > i + 1 {
        ColumnsIncrease(argv, i + 1, k);
      }
    }
  }

  /** A walk from token `i` fails exactly when some token it reads as an option has a defect. */
  lemma WalkFailsOnDefect(placement: Placement, argv: Argv, registry: Registry, i: nat, slots: Slots)
    requires IsValidCommandLine(argv) && 1 <= i <= |argv| && |slots| == |registry| + 1
    ensures Walk(placement, argv, registry, i, slots).Failure? <==>
              exists s :: Reached(argv, registry, i, s) && DefectAt(argv, registry, s)
  {
    if Walk(placement, argv, registry, i, slots).Failure? {
      WalkErrorExplained(placement, argv, registry, i, slots);
      var s :| FirstDefect(argv, registry, i, s);
    } else {
      WalkReadsOptions(placement, argv, registry, i, slots);
    }
  }

  /** The walk from token 1, when it fails with an error the placement reports at its site,
      explains that error at its first defect. */
  lemma FirstWalkErrorExplained(placement: Placement, argv: Argv, registry: Registry)
    requires IsValidCommandLine(argv) && argv[0].Some?
    requires Walk(placement, argv, registry, 1, InitialSlots(argv, |registry|)).Failure?
    ensures var e := Walk(placement, argv, registry, 1, InitialSlots(argv, |registry|)).error;
            placement == Intended || e.kind != InvalidArgument ==>
              SoleRecordAtFirstDefect(argv, registry, e) && Explains(argv, registry, e)
  {
    var slots := InitialSlots(argv, |registry|);
    var e := Walk(placement, argv, registry, 1, slots).error;
    WalkErrorExplained(placement, argv, registry, 1, slots);
    if placement == Intended || e.kind != InvalidArgument {
      var s :| FirstDefect(argv, registry, 1, s) && ExplainsAtSite(argv, registry, e, s);
      SiteExplains(argv, registry, e, s);
      forall e' | ExplainedAtFirstDefect(argv, registry, e') ensures e' == e {
        ExplainedAtFirstDefectUnique(argv, registry, e', e);
      }
    }
  }

  /** With the intended placement, and a non-null `argv[0]`, every parse failure on a valid
      command line is a `cppargs::Exception` raised at the first token read as an option that
      has a defect; its record explains the error there, and its message quotes exactly the
      explained bytes. */
  lemma IntendedParseErrorsExplained(argv: Argv, registry: Registry)
    requires IsValidCommandLine(argv) && argv[0].Some?
    ensures var r := ParseIntended(argv, registry);
            r.Failure? ==>
              && r.error.Thrown?
              && SoleRecordAtFirstDefect(argv, registry, Info(r.error.exception))
              && QuotesItsRange(r.error.exception)
  {
    var slots := InitialSlots(argv, |registry|);
    var w := Walk(Intended, argv, registry, 1, slots);
    if w.Failure? {
      FirstWalkErrorExplained(Intended, argv, registry);
      ExplainedErrorHasMessage(argv, registry, w.error);
      var x := MakeException(w.error).value;
      assert ParseIntended(argv, registry) == Failure(Thrown(x));
      assert Info(x) == w.error;
    }
  }

  /** `cppargs::parse` as written, with a non-null `argv[0]`: every failure on a valid command
      line comes from a walk that stopped at the first token read as an option that has a
      defect; every error other than `invalid_argument` is a `cppargs::Exception` whose record
      explains it at that token; and only an `invalid_argument` error can make the message's
      `substr` throw. */
  lemma ParseErrorsExplained(argv: Argv, registry: Registry)
    requires IsValidCommandLine(argv) && argv[0].Some?
    ensures var r := Parse(argv, registry);
            var w := Walk(AsWritten, argv, registry, 1, InitialSlots(argv, |registry|));
            && (r.Failure? ==> w.Failure?)
            && (r.Failure? ==>
                  exists s :: && FirstDefect(argv, registry, 1, s)
                              && (w.error.kind != InvalidArgument ==> ExplainsAtSite(argv, registry, w.error, s)))
            && (r.Failure? && w.error.kind != InvalidArgument ==>
                  && r.error.Thrown? && Info(r.error.exception) == w.error
                  && SoleRecordAtFirstDefect(argv, registry, w.error))
            && (r == Failure(SubstringOutOfRange) ==> w.error.kind == InvalidArgument)
  {
    var w := Walk(AsWritten, argv, registry, 1, InitialSlots(argv, |registry|));
    if w.Failure? {
      WalkErrorExplained(AsWritten, argv, registry, 1, InitialSlots(argv, |registry|));
      FirstWalkErrorExplained(AsWritten, argv, registry);
      var s :| FirstDefect(argv, registry, 1, s) && (w.error.kind != InvalidArgument ==> ExplainsAtSite(argv, registry, w.error, s));
      if w.error.kind != InvalidArgument {
        SiteExplains(argv, registry, w.error, s);
        ExplainedErrorHasMessage(argv, registry, w.error);
      }
    }
  }

  // ---------------------------------------------------------------------------------------
  // Filled slots

  /** Stored for a parameter: the empty present value for a flag, otherwise a string its
      `validate` accepts. */
  ghost predicate Accepted(info: ParameterInfo, value: string)
  {
    if info.validate.None? then value == "" else info.validate.value(value)
  }

  /** The parameter's long name appears as a `--name` token, or its short name appears in a
      cluster token. */
  ghost predicate Mentioned(argv: Argv, info: ParameterInfo)
  {
    exists k :: 1 <= k < |argv| && argv[k].Some? &&
      (|| argv[k].value == "--" + info.longName
       || (info.shortName.Some? && IsClusterToken(argv[k].value) && info.shortName.value in argv[k].value[1..]))
  }

  /** `after` differs from `before` only in slots of parameters that were mentioned, each
      changed slot holds an accepted value, and no filled slot is emptied. */
  ghost predicate Extends(argv: Argv, registry: Registry, before: Slots, after: Slots)
  {
    && |before| == |registry| + 1 && |after| == |before| && after[0] == before[0]
    && forall k :: 1 <= k < |after| ==>
         && (before[k].Some? ==> after[k].Some?)
         && (after[k] != before[k] ==> after[k].Some? && Mentioned(argv, registry[k - 1]) && Accepted(registry[k - 1], after[k].value))
  }

  lemma ExtendsTransitive(argv: Argv, registry: Registry, a: Slots, b: Slots, c: Slots)
    requires Extends(argv, registry, a, b) && Extends(argv, registry, b, c)
    ensures Extends(argv, registry, a, c)
  {
    forall k | 1 <= k < |c|
      ensures c[k] != a[k] ==> c[k].Some? && Mentioned(argv, registry[k - 1]) && Accepted(registry[k - 1], c[k].value)
    {
      if c[k] != a[k] && c[k] == b[k] {
        assert b[k] != a[k];
      }
    }
  }

  /** Storing an accepted value for a mentioned parameter extends the slots. */
  lemma StoreExtends(argv: Argv, registry: Registry, slots: Slots, j: nat, value: string)
    requires |slots| == |registry| + 1 && j < |registry|
    requires Mentioned(argv, registry[j]) && Accepted(registry[j], value)
    ensures Extends(argv, registry, slots, slots[registry[j].index := Some(value)])
  {
  }

  lemma LongOptionExtends(argv: Argv, registry: Registry, i: nat, slots: Slots)
    requires IsValidCommandLine(argv) && 1 <= i < |argv|
    requires IsLongOptionToken(argv[i].value) && |slots| == |registry| + 1
    requires LongOption(argv, registry, i, slots).Success?
    ensures Extends(argv, registry, slots, LongOption(argv, registry, i, slots).value.slots)
  {
    var token := argv[i].value;
    var name := token[2..];
    var j := FindLong(registry, name).value;
    assert token == "--" + name by { assert token == token[..2] + token[2..]; }
    assert Mentioned(argv, registry[j]);
    if registry[j].validate.None? {
      StoreExtends(argv, registry, slots, j, "");
    } else {
      StoreExtends(argv, registry, slots, j, argv[i + 1].value);
    }
  }

  lemma {:induction false} ShortClusterExtends(
    placement: Placement, argv: Argv, registry: Registry, i: nat, offset: nat, slots: Slots)
    requires IsValidCommandLine(argv) && 1 <= i < |argv|
    requires IsClusterToken(argv[i].value) && 1 <= offset <= |argv[i].value|
    requires |slots| == |registry| + 1
    requires ShortCluster(placement, argv, registry, i, offset, slots).Success?
    ensures Extends(argv, registry, slots, ShortCluster(placement, argv, registry, i, offset, slots).value.slots)
    decreases |argv[i].value| - offset
  {
    var token := argv[i].value;
    if offset < |token| {
      var j := FindShort(registry, token[offset]).value;
      var info := registry[j];
      assert token[1..][offset - 1] == token[offset];
      assert Mentioned(argv, info);
      if info.validate.None? {
        var next := slots[info.index := Some("")];
        StoreExtends(argv, registry, slots, j, "");
        ShortClusterExtends(placement, argv, registry, i, offset + 1, next);
        ExtendsTransitive(argv, registry, slots, next,
                          ShortCluster(placement, argv, registry, i, offset + 1, next).value.slots);
      } else if offset + 1 < |token| {
        StoreExtends(argv, registry, slots, j, token[offset + 1..]);
      } else {
        StoreExtends(argv, registry, slots, j, argv[i + 1].value);
      }
    }
  }

  lemma StepExtends(placement: Placement, argv: Argv, registry: Registry, i: nat, slots: Slots)
    requires IsValidCommandLine(argv) && 1 <= i < |argv| && |slots| == |registry| + 1
    requires Step(placement, argv, registry, i, slots).Success?
    ensures Extends(argv, registry, slots, Step(placement, argv, registry, i, slots).value.slots)
  {
    if IsLongOptionToken(argv[i].value) {
      LongOptionExtends(argv, registry, i, slots);
    } else {
      ShortClusterExtends(placement, argv, registry, i, 1, slots);
    }
  }

  /** The walk from token `i` extends the slots it starts with and leaves each entry's slot at
      the entry's last value from `i` on (or as it was when nothing names the entry); no token
      it reads as an option has a defect, and every token from `i` on that is not an option is
      the value that the option token just before it, read as an option, takes. */
  lemma {:induction false} WalkSucceeds(placement: Placement, argv: Argv, registry: Registry, i: nat, slots: Slots)
    requires IsValidCommandLine(argv) && 1 <= i <= |argv| && |slots| == |registry| + 1
    requires Walk(placement, argv, registry, i, slots).Success?
    ensures Extends(argv, registry, slots, Walk(placement, argv, registry, i, slots).value)
    ensures forall j :: 0 <= j < |registry| ==>
              Walk(placement, argv, registry, i, slots).value[j + 1] == Override(LastValue(argv, registry, i, j), slots[j + 1])
    ensures forall k :: Reached(argv, registry, i, k) ==> !DefectAt(argv, registry, k)
    ensures forall k :: i <= k < |argv| && !IsOptionToken(argv[k].value) ==>
              i < k && Reached(argv, registry, i, k - 1) && TakesNext(argv, registry, k - 1)
    decreases |argv| - i
  {
    WalkStoresLastValues(placement, argv, registry, i, slots);
    WalkReadsOptions(placement, argv, registry, i, slots);
    if i < |argv| {
      var progress := Step(placement, argv, registry, i, slots).value;
      StepExtends(placement, argv, registry, i, slots);
      WalkSucceeds(placement, argv, registry, progress.next, progress.slots);
      ExtendsTransitive(argv, registry, slots, progress.slots,
                        Walk(placement, argv, registry, progress.next, progress.slots).value);
    }
  }

  /** A successful walk from token `i` reads as options only tokens without a defect, and
      passes over a non-option token only as the value of the option token before it. */
  lemma {:induction false} WalkReadsOptions(placement: Placement, argv: Argv, registry: Registry, i: nat, slots: Slots)
    requires IsValidCommandLine(argv) && 1 <= i <= |argv| && |slots| == |registry| + 1
    requires Walk(placement, argv, registry, i, slots).Success?
    ensures forall k :: Reached(argv, registry, i, k) ==> !DefectAt(argv, registry, k)
    ensures forall k :: i <= k < |argv| && !IsOptionToken(argv[k].value) ==>
              i < k && Reached(argv, registry, i, k - 1) && TakesNext(argv, registry, k - 1)
    decreases |argv| - i
  {
    if i < |argv| {
      var progress := Step(placement, argv, registry, i, slots).value;
      StepStores(placement, argv, registry, i, slots);
      StepFailsOnDefect(placement, argv, registry, i, slots);
      WalkReadsOptions(placement, argv, registry, progress.next, progress.slots);
      forall k | Reached(argv, registry, i, k) ensures !DefectAt(argv, registry, k) {
        if k != i {
          assert Reached(argv, registry, progress.next, k);
        }
      }
      forall k | i <= k < |argv| && !IsOptionToken(argv[k].value)
        ensures i < k && Reached(argv, registry, i, k - 1) && TakesNext(argv, registry, k - 1)
      {
        assert Reached(argv, registry, i, i);
        if progress.next <= k {
          assert Reached(argv, registry, progress.next, k - 1);
        }
      }
    }
  }

  /** After a successful parse (in either placement): slot 0 is `argv[0]`; each entry's slot
      holds the value of the last token read as an option that names it, and is filled exactly
      when such a token exists; every filled slot holds the empty value for a flag or a string
      its `validate` accepted; no token read as an option has a defect; and every token that is
      not an option is the value that the option token right before it, read as an option,
      takes. */
  lemma ParseSucceeds(placement: Placement, argv: Argv, registry: Registry)
    requires ParseWith(placement, argv, registry).Success?
    ensures var a := ParseWith(placement, argv, registry).value;
            && |a.slots| == |registry| + 1
            && ArgvZero(a) == argv[0]
            && (forall k :: 1 <= k < |a.slots| && a.slots[k].Some? ==>
                  Mentioned(argv, registry[k - 1]) && Accepted(registry[k - 1], a.slots[k].value))
            && (forall j :: 0 <= j < |registry| ==> a.slots[j + 1] == LastValue(argv, registry, 1, j))
            && (forall j :: 0 <= j < |registry| ==>
                  (a.slots[j + 1].Some? <==> NamedFrom(argv, registry, 1, j)))
            && (forall k :: Reached(argv, registry, 1, k) ==> !DefectAt(argv, registry, k))
            && (forall k :: 1 <= k < |argv| && !IsOptionToken(argv[k].value) ==>
                  2 <= k && Reached(argv, registry, 1, k - 1) && TakesNext(argv, registry, k - 1))
  {
    WalkSucceeds(placement, argv, registry, 1, InitialSlots(argv, |registry|));
    forall j | 0 <= j < |registry|
      ensures LastValue(argv, registry, 1, j).Some? <==> NamedFrom(argv, registry, 1, j)
    {
      LastValueNamed(argv, registry, 1, j);
    }
  }

  /** Reading back through the handle of entry `j` after a successful parse succeeds, never
      reaches slot 0, and yields the entry's last value: present exactly when a token read as an
      option names the entry, and then a value the entry accepted. */
  lemma HandleReadsItsSlot(argv: Argv, registry: Registry, j: nat)
    requires Parse(argv, registry).Success? && j < |registry|
    ensures var a := Parse(argv, registry).value;
            var r := Get(a, Parameter(registry[j].index));
            && registry[j].index != 0
            && r.Success?
            && r.value == LastValue(argv, registry, 1, j)
            && (r.value.Some? <==> NamedFrom(argv, registry, 1, j))
            && (r.value.Some? ==> Mentioned(argv, registry[j]) && Accepted(registry[j], r.value.value))
  {
    ParseSucceeds(AsWritten, argv, registry);
  }
}

=== FILE: parser.dfy ===
/** `cppargs::parse` (parse.cpp): one left-to-right walk over `argv[1..]` that classifies
    each token as a long option, a short-option cluster or a positional argument, looks it up
    in the registry, sometimes consumes the next token as a value, and either fills the slot
    vector or stops at the first error. */
module Parser {
  import opened Wrappers
  import opened CommandLine
  import opened ParseErrors
  import opened Parameters
  import opened ParsedArguments

  /** Which columns the two short-option `invalid_argument` errors report. `AsWritten` is
      parse.cpp: the inline value is reported from the option character (line 109), and a value
      taken from the next token is shifted by the character's offset (line 119). `Intended`
      reports the value itself in both places. Every other error is placed the same way. */
  datatype Placement = AsWritten | Intended

  /** The slot vector being filled: slot 0 for `argv[0]`, slot `i` for index `i`. */
  type Slots = seq<Option<string>>

  /** The slots after one token, and the position of the next unread token. */
  datatype Progress = Progress(slots: Slots, next: nat)

  /** What `parse` can throw: `std::invalid_argument` for a malformed command line, a
      `cppargs::Exception`, or `std::out_of_range` when building that exception's message fails. */
  datatype ParseFailure = InvalidCommandLine | Thrown(exception: Exception) | SubstringOutOfRange

  /** A token starting with `--` other than `--` itself. */
  predicate IsLongOptionToken(s: string)
  {
    s != "--" && |s| >= 2 && s[..2] == "--"
  }

  /** A token starting with `-` other than `-` and `--`. */
  predicate IsClusterToken(s: string)
  {
    s != "--" && s != "-" && |s| >= 1 && s[0] == '-'
  }

  predicate IsOptionToken(s: string)
  {
    IsLongOptionToken(s) || IsClusterToken(s)
  }

  /** `std::ranges::find` by long name: the first entry registered under `name`. */
  function FindLong(registry: seq<ParameterInfo>, name: string): (r: Option<nat>)
    ensures r.Some? ==> r.value < |registry| && registry[r.value].longName == name
    ensures r.Some? ==> forall j :: 0 <= j < r.value ==> registry[j].longName != name
    ensures r.None? ==> forall j :: 0 <= j < |registry| ==> registry[j].longName != name
  {
    FindFirst(registry, (info: ParameterInfo) => info.longName == name)
  }

  /** `std::ranges::find` by short name: the first entry whose optional short name holds `c`. */
  function FindShort(registry: seq<ParameterInfo>, c: char): (r: Option<nat>)
    ensures r.Some? ==> r.value < |registry| && registry[r.value].shortName == Some(c)
    ensures r.Some? ==> forall j :: 0 <= j < r.value ==> registry[j].shortName != Some(c)
    ensures r.None? ==> forall j :: 0 <= j < |registry| ==> registry[j].shortName != Some(c)
  {
    FindFirst(registry, (info: ParameterInfo) => info.shortName == Some(c))
  }

  /** The `exception` lambda: the joined line, the kind, the column of token `k` plus
      `columnPlus`, and the width of the reported view. */
  function LocatedError(argv: Argv, kind: Kind, k: nat, columnPlus: nat, width: nat): ParseErrorInfo
    requires IsValidCommandLine(argv) && k < |argv|
  {
    ParseErrorInfo(MakeCommandLineString(argv), kind, CommandLineColumn(argv, k) + columnPlus, width)
  }

  /** The result vector before the walk: `size + 1` empty slots, then `argv[0]` in slot 0 when
      it is non-null. */
  function InitialSlots(argv: Argv, size: nat): (slots: Slots)
    requires |argv| > 0
    ensures |slots| == size + 1 && slots[0] == argv[0]
    ensures forall k :: 1 <= k < |slots| ==> slots[k].None?
  {
    [argv[0]] + seq(size, k => None)
  }

  /** Token `i` is `--name`. */
  function LongOption(argv: Argv, registry: Registry, i: nat, slots: Slots): (r: Result<Progress, ParseErrorInfo>)
    requires IsValidCommandLine(argv) && 1 <= i < |argv| && IsLongOptionToken(argv[i].value)
    requires |slots| == |registry| + 1
    ensures r.Success? ==> |r.value.slots| == |slots| && r.value.slots[0] == slots[0]
    ensures r.Success? ==> i < r.value.next <= i + 2 && r.value.next <= |argv|
  {
    var name := argv[i].value[2..];
    match FindLong(registry, name)
    case None => Failure(LocatedError(argv, UnrecognizedOption, i, 2, |name|))
    case Some(j) =>
      var info := registry[j];
      if info.validate.None? then
        Success(Progress(slots[info.index := Some("")], i + 1))
      else if i + 1 == |argv| then
        Failure(LocatedError(argv, MissingArgument, i, 2, |name|))
      else if info.validate.value(argv[i + 1].value) then
        Success(Progress(slots[info.index := argv[i + 1]], i + 2))
      else
        Failure(LocatedError(argv, InvalidArgument, i + 1, 0, |argv[i + 1].value|))
  }

  /** Token `i` is a cluster `-xyz`; `offset` is the position of the next character to read. */
  function ShortCluster(placement: Placement, argv: Argv, registry: Registry, i: nat, offset: nat, slots: Slots)
    : (r: Result<Progress, ParseErrorInfo>)
    requires IsValidCommandLine(argv) && 1 <= i < |argv| && IsClusterToken(argv[i].value)
    requires 1 <= offset <= |argv[i].value|
    requires |slots| == |registry| + 1
    ensures r.Success? ==> |r.value.slots| == |slots| && r.value.slots[0] == slots[0]
    ensures r.Success? ==> i < r.value.next <= i + 2 && r.value.next <= |argv|
    decreases |argv[i].value| - offset
  {
    var token := argv[i].value;
    if offset == |token| then Success(Progress(slots, i + 1))
    else
      match FindShort(registry, token[offset])
      case None => Failure(LocatedError(argv, UnrecognizedOption, i, offset, 1))
      case Some(j) =>
        var info := registry[j];
        if info.validate.None? then
          ShortCluster(placement, argv, registry, i, offset + 1, slots[info.index := Some("")])
        else if offset + 1 < |token| then
          var argument := token[offset + 1..];
          if info.validate.value(argument) then
            Success(Progress(slots[info.index := Some(argument)], i + 1))
          else
            var shift := if placement.AsWritten? then offset else offset + 1;
            Failure(LocatedError(argv, InvalidArgument, i, shift, |argument|))
        else if i + 1 == |argv| then
          Failure(LocatedError(argv, MissingArgument, i, offset, 1))
        else if info.validate.value(argv[i + 1].value) then
          Success(Progress(slots[info.index := argv[i + 1]], i + 2))
        else
          var shift := if placement.AsWritten? then offset else 0;
          Failure(LocatedError(argv, InvalidArgument, i + 1, shift, |argv[i + 1].value|))
  }

  /** One pass of the outer loop, at token `i`. */
  function Step(placement: Placement, argv: Argv, registry: Registry, i: nat, slots: Slots)
    : (r: Result<Progress, ParseErrorInfo>)
    requires IsValidCommandLine(argv) && 1 <= i < |argv| && |slots| == |registry| + 1
    ensures r.Success? ==> |r.value.slots| == |slots| && r.value.slots[0] == slots[0]
    ensures r.Success? ==> i < r.value.next <= i + 2 && r.value.next <= |argv|
    ensures r.Success? ==> IsOptionToken(argv[i].value)
  {
    var token := argv[i].value;
    if IsLongOptionToken(token) then LongOption(argv, registry, i, slots)
    else if IsClusterToken(token) then ShortCluster(placement, argv, registry, i, 1, slots)
    else Failure(LocatedError(argv, PositionalArgument, i, 0, |token|))
  }

  /** The outer loop from token `i` to the end. */
  function Walk(placement: Placement, argv: Argv, registry: Registry, i: nat, slots: Slots)
    : (r: Result<Slots, ParseErrorInfo>)
    requires IsValidCommandLine(argv) && 1 <= i <= |argv| && |slots| == |registry| + 1
    ensures r.Success? ==> |r.value| == |slots| && r.value[0] == slots[0]
    decreases |argv| - i
  {
    if i == |argv| then Success(slots)
    else
      match Step(placement, argv, registry, i, slots)
      case Failure(e) => Failure(e)
      case Success(progress) => Walk(placement, argv, registry, progress.next, progress.slots)
  }

  /** `parse`, with the error columns chosen by `placement`. */
  function ParseWith(placement: Placement, argv: Argv, registry: Registry): (r: Result<Arguments, ParseFailure>)
    ensures r == Failure(InvalidCommandLine) <==> !IsValidCommandLine(argv)
    ensures r.Success? ==> |r.value.slots| == |registry| + 1 && r.value.slots[0] == argv[0]
  {
    if !IsValidCommandLine(argv) then Failure(InvalidCommandLine)
    else
      match Walk(placement, argv, registry, 1, InitialSlots(argv, |registry|))
      case Success(slots) => Success(Arguments(slots))
      case Failure(info) =>
        match MakeException(info)
        case Success(e) => Failure(Thrown(e))
        case Failure(_) => Failure(SubstringOutOfRange)
  }

  /** `cppargs::parse` as written. */
  function Parse(argv: Argv, registry: Registry): (r: Result<Arguments, ParseFailure>)
    ensures r == Failure(InvalidCommandLine) <==> !IsValidCommandLine(argv)
    ensures r.Success? ==> |r.value.slots| == |registry| + 1 && ArgvZero(r.value) == argv[0]
  {
    ParseWith(AsWritten, argv, registry)
  }

  /** `cppargs::parse` with the short-option value errors reporting the value itself. */
  function ParseIntended(argv: Argv, registry: Registry): (r: Result<Arguments, ParseFailure>)
    ensures r == Failure(InvalidCommandLine) <==> !IsValidCommandLine(argv)
    ensures r.Success? ==> |r.value.slots| == |registry| + 1 && ArgvZero(r.value) == argv[0]
  {
    ParseWith(Intended, argv, registry)
  }
}

=== FILE: wrappers.dfy ===
/** Failure-compatible datatypes used in place of C++ null pointers,
    `std::optional` and exceptions. */
module Wrappers {

  /** `std::optional<T>`, and also a possibly-null C pointer. */
  datatype Option<+T> = None | Some(value: T)

  /** The outcome of an operation that may throw instead of returning. */
  datatype Result<+R, +E> = Success(value: R) | Failure(error: E)

  /** `std::out_of_range`, thrown by `std::string_view::substr` and `std::vector::at`. */
  datatype OutOfRange = OutOfRange

  /** Index of the first element of `xs` that satisfies `p`, as `std::ranges::find`
      with a projection returns it. */
  function FindFirst<T>(xs: seq<T>, p: T -> bool): (r: Option<nat>)
    ensures r.Some? ==> r.value < |xs| && p(xs[r.value])
    ensures r.Some? ==> forall j :: 0 <= j < r.value ==> !p(xs[j])
    ensures r.None? ==> forall j :: 0 <= j < |xs| ==> !p(xs[j])
  {
    if |xs| == 0 then None
    else if p(xs[0]) then Some(0)
    else match FindFirst(xs[1..], p)
      case None => None
      case Some(j) => Some(j + 1)
  }
}
